=== FILE: README.md ===
# TaskFlow task lifecycle, in Dafny

A model of the core of TaskFlow, a personal task manager: the task routes of the server
(`backend/routes/tasks.js`), the reminder sweep (`backend/services/notificationScheduler.js`)
and the pieces of the web client that classify, filter and edit tasks (`Dashboard.js`,
`Analytics.js`, `History.js`, `TaskModal.js`). The model covers:

- creating a task, with the body validators, the end-after-start check, the start window
  (a week either side of now, thirty days ahead for a recurring request), and the expansion
  of a daily, weekly or custom recurrence into concrete tasks;
- the guard chain of `PUT /tasks/:id`: validation, ownership, the completed lock, the
  not-started rule, the completion-only shortcut, the expiry and time-window checks, and the
  field update;
- the soft delete;
- the analytics counts on the server and in the client, the pie slices and the weekly bars;
- the status the dashboard derives for a task (`getTaskStatus`), its filter, the buttons it
  enables, the Upcoming badge, and the list updates after an update or a delete;
- the history list: the non-active tasks, the day-range and status filters, and the badge;
- the task form: assembling date and time texts, `validateForm`, the recurrence member of the
  submitted body, the last day the custom-date picker offers, the custom-date list, and the
  `dd-MM-yyyy` to `yyyy-MM-dd` converter;
- one reminder sweep and runs of sweeps, with the set of already-reminded keys.

Time is an integer number of milliseconds in one fixed time zone (module `Clock`). Every
operation that reads the clock takes `now` as a parameter. The store is a map from task id to
task (module `Tasks`). Every refusal of a route is one `Rejection` variant, returned through
`Result`.

Modules:

| module | file | role |
|---|---|---|
| `Wrappers` | wrappers.dfy | `Option` and `Result` |
| `Seqs` | seqs.dfy | `Filter`, `Count`, subsequence and duplicate-freedom lemmas |
| `Clock` | clock.dfy | days, minutes of the day, the start windows |
| `Calendar` | calendar.dfy | Gregorian month lengths, day numbers, decimal digits |
| `Text` | text.dfy | `trim` |
| `Tasks` | tasks.dfy | the task record, the store, the rejections |
| `Status` | status.dfy | the derived status |
| `Recurrence` | recurrence.dfy | the recurrence validator and expansion |
| `Create` | create.dfy | `POST /tasks` |
| `Lifecycle` | lifecycle.dfy | `PUT /tasks/:id` and `DELETE /tasks/:id` |
| `Analytics` | analytics.dfy | server and client analytics |
| `Dashboard` | dashboard.dfy | the dashboard's filter, buttons and list updates |
| `DisplayDate` | displaydate.dfy | `dd-MM-yyyy` and `yyyy-MM-dd` dates |
| `History` | history.dfy | the history page |
| `TaskForm` | taskform.dfy | the task form |
| `Reminders` | reminders.dfy | the reminder sweep |

Behaviours of the code worth knowing, which the model keeps:

- An update body that fails validation is refused with 400 before the ownership lookup.
  So a bad body sent for someone else's task gets 400, not 404.
- The completion-only shortcut sets `isCompleted` without any time check. So it completes a
  task that is already past its end, and so a failed task can be revived as completed.
- `isDeleted` is never read by the update route. A soft-deleted task can still be edited and
  completed.
- Delete checks only ownership and expiry. A completed task that has not ended can be deleted.
- Only a body carrying both times is checked for end-after-start. Moving just the end before
  the current start is accepted.
- `isCompleted: 1` passes the boolean validator and is stored as true. But it is neither
  `true` nor `'true'`, so it skips the not-started rule.
- A daily series started at `now` gets no task today unless `now` is on a whole minute. The
  occurrence on today's date has its seconds zeroed, which puts it before `now`.
- History's status choice tests the flags, not the badge. "failed" also shows deleted tasks
  that ended unfinished.
- The dashboard's local list does not learn the `updatedAt` a delete writes.
- The custom-date picker offers dates up to the day thirty days ahead. A date picked on that
  last day, for a task whose time of day is later than now's, starts after the server's
  thirty-day cutoff and is dropped.
- Sweeps of the reminder scheduler are started every minute and are not serialised. A key is
  recorded only after the awaited send, so two sweeps that overlap can both remind the same
  task.

## Model

| member | source | states |
|---|---|---|
| Text.Trim | backend/routes/tasks.js:21 | the trimmed title is a contiguous slice of the text that neither starts nor ends with white space, and only white space was removed around it |
| Text.ValidatorLengthAppend | backend/routes/tasks.js:21 | the length the title validator measures grows by one per character, except for the presentation selectors U+FE0E and U+FE0F, which it does not count |
| Text.TrimEmptyIffAllSpace | frontend/src/components/TaskModal.js:88-90 | a title trims to nothing exactly when it is all white space |
| Calendar.DaysInMonth | frontend/src/components/TaskModal.js:161-169 | months have 28 to 31 days: 31 for January, March, May, July, August, October and December, 30 for April, June, September and November, and February has 29 exactly in leap years |
| Calendar.NextDayInMonth | frontend/src/pages/History.js:19-20 | consecutive days of a month get consecutive day numbers |
| Calendar.NextMonth | frontend/src/pages/History.js:19-20 | the first of a month is the day after the last day of the month before, February's length included |
| Calendar.NextYear | frontend/src/pages/History.js:19-20 | the first of January is the day after the thirty-first of December |
| Calendar.EpochIsDayZero | backend/routes/tasks.js:34 | 1970-01-01 is day zero, so a date's day number times the length of a day is its epoch time at midnight |
| Clock.Midnight | backend/routes/tasks.js:74-77 | the midnight of an instant's day is on a day boundary, at or before the instant and less than a day before it |
| Clock.MinuteOfDay | backend/routes/tasks.js:75 | `getHours()` and `getMinutes()` give a minute of the day from 0 to 1439, and the instant falls within that minute |
| Clock.AtDecomposes | backend/routes/tasks.js:75-77 | `setHours(h, m, 0, 0)` on a day gives an instant on that day at exactly that minute, with seconds and milliseconds zero |
| Tasks.SelectorTitles | backend/routes/tasks.js:21 | a title made only of a presentation selector is refused, and appending one to a valid title keeps it valid |
| Tasks.Save | backend/routes/tasks.js:226-230 | writing a task stores it under its id and leaves every other entry unchanged |
| Status.Resolve | frontend/src/pages/Dashboard.js:102-110 | deleted before completed before failed; active exactly when open, not deleted and not past the end; failed exactly when open, not deleted and past the end |
| Status.ResolveReadsOnlyFlagsAndEnd | frontend/src/pages/Dashboard.js:102-110 | the status depends only on the two flags, the end time and the clock |
| Status.FailedBoundary | frontend/src/pages/Dashboard.js:108 | an open task is still active at the millisecond of its end and failed one millisecond later |
| Status.StatusStableOverTime | frontend/src/pages/Dashboard.js:102-110 | for an unchanged task, failed stays failed as time passes, and completed or deleted never changes |
| Status.NameInjective | frontend/src/pages/Dashboard.js:138-152 | the status names are distinct, so the filter's name comparison is a status comparison |
| Recurrence.ParsedDates | backend/routes/tasks.js:33-35 | the custom dates parse exactly when every one of them parses, and then give the parsed values in order |
| Recurrence.Validate | backend/routes/tasks.js:26-38 | the custom validator: reads the request's recurrence member as a plan or a problem; its cases are stated by Recurrence.ValidateCases and Recurrence.ValidateDescribe |
| Recurrence.ValidateCases | backend/routes/tasks.js:26-38 | an absent recurrence is a one-off; a non-object is refused; a type outside none, daily, weekly and custom is refused; custom without a dates array is refused; custom with an unparseable date is refused; the recurring plans are exactly daily, weekly and custom |
| Recurrence.ValidateDescribe | backend/routes/tasks.js:26-38 | every plan a client describes is accepted and read back unchanged |
| Recurrence.Candidate | backend/routes/tasks.js:73-77 | the occurrence on a date at the base start's and base end's hour and minute; Recurrence.CandidateOnBaseTimes states where it lies |
| Recurrence.CandidateOnBaseTimes | backend/routes/tasks.js:73-77 | an occurrence lies on its date's day at the hour and minute of the base start and the base end |
| Recurrence.Occurrences | backend/routes/tasks.js:73-89 | each date yields at most one occurrence; every kept one ends after it starts, does not start before now or after the thirty-day cutoff, and sits at the base times |
| Recurrence.OccurrencesFromDates | backend/routes/tasks.js:103-107 | every occurrence is the candidate of one of the given dates |
| Recurrence.OccurrencesComplete | backend/routes/tasks.js:78-81 | a date whose candidate passes the three filters always yields an occurrence |
| Recurrence.OccurrencesKeepListOrder | backend/routes/tasks.js:104-107 | the occurrences are exactly the candidates of the dates, in list order, with the inadmissible ones removed; a date listed twice gives two occurrences |
| Recurrence.OccurrencesAscend | backend/routes/tasks.js:91-102 | dates on strictly later days give occurrences with strictly later starts |
| Recurrence.LateDateDropped | backend/routes/tasks.js:80 | a date whose day begins after the thirty-day cutoff yields nothing |
| Recurrence.Cursors | backend/routes/tasks.js:92-96 | the loop visits the base start plus whole steps, every visited cursor is at or before the cutoff, and the next step would pass it |
| Recurrence.Expand | backend/routes/tasks.js:66-108 | every expanded occurrence passes the three filters and sits at the base times |
| Recurrence.CursorDaysIncrease | backend/routes/tasks.js:93-101 | stepping by a day or a week visits strictly later calendar days |
| Recurrence.SteppedStartsIncrease | backend/routes/tasks.js:91-102 | daily and weekly series come out with strictly increasing starts |
| Recurrence.DailyComplete | backend/routes/tasks.js:91-96 | every day the daily loop reaches whose candidate passes the filters is in the series |
| Recurrence.InvertedTimesYieldNothing | backend/routes/tasks.js:75-78 | when the end's time of day is not after the start's, as for a task past midnight, no plan yields any occurrence |
| Recurrence.SpreadByDays | backend/routes/tasks.js:75-77 | occurrences at one time of day with increasing starts are at least a day apart each |
| Recurrence.SteppedAtMostThirtyOne | backend/routes/tasks.js:91-102 | a daily or weekly request creates at most thirty-one tasks |
| Recurrence.TodayDroppedUnlessWholeMinute | backend/routes/tasks.js:75-79 | a daily series started at now, when now is not on a whole minute, has no occurrence on today's date |
| Create.DraftAt | backend/routes/tasks.js:81-88 | the record built for one occurrence: trimmed title and description, the given times, the priority or medium; Create.CreateSingle and Create.CreateSeries state what is stored |
| Create.Create | backend/routes/tasks.js:20-133 | the create handler from validation to the inserted records; its outcomes are stated by Create.CreateRejections, Create.CreateSingle and Create.CreateSeries |
| Create.Problems | backend/routes/tasks.js:20-44 | the validators report nothing exactly when the title is 1 to 255 characters once trimmed, the times and priority are well formed, and the recurrence is accepted |
| Create.CreateRejections | backend/routes/tasks.js:41-64 | refusals come in this order: validation errors, end not after start, start outside the window; creation succeeds exactly when all three pass and a recurring request yields at least one occurrence |
| Create.CreateSingle | backend/routes/tasks.js:118-126 | a one-off request stores one task at the requested times, which end after they start and start within a week of now; with no priority it gets medium |
| Create.CreateSeries | backend/routes/tasks.js:66-116 | a recurring request stores one task per occurrence, never none, each with the trimmed title, ending after it starts, starting from now through thirty days ahead, at the base times |
| Create.OvernightSeriesRefused | backend/routes/tasks.js:110-112 | a recurring request whose end time of day is not after its start time of day always gets "No valid occurrences" |
| Create.CustomBeyondHorizonRefused | backend/routes/tasks.js:103-112 | a custom series whose only date is beyond thirty days gets "No valid occurrences" |
| Lifecycle.UpdateProblems | backend/routes/tasks.js:136-148 | the update validators report nothing exactly when every field sent is well formed: a 1 to 255 character trimmed title, and an `isCompleted` that is a boolean or one of "true", "false", "1", "0" |
| Lifecycle.StoredFlag | backend/routes/tasks.js:223 | the boolean an accepted `isCompleted` value is stored as: true for `true`, "true" and "1"; Lifecycle.NumericTrueSkipsNotStarted uses it |
| Lifecycle.Apply | backend/routes/tasks.js:215-230 | the `$set` of a general update; Lifecycle.UpdateChangesOnlySentFields states which fields change |
| Lifecycle.Guard | backend/routes/tasks.js:159-213 | the checks on the caller's own task in source order; stated by Lifecycle.CompletedLock, Lifecycle.NotStartedRule, Lifecycle.CompletionShortcut and Lifecycle.GeneralUpdateOrder |
| Lifecycle.Update | backend/routes/tasks.js:136-236 | the update handler: validation, ownership, then the guard; stated by Lifecycle.OwnershipFirst and Lifecycle.ForeignRequestsLeaveStore |
| Lifecycle.Delete | backend/routes/tasks.js:239-260 | the soft delete; stated by Lifecycle.DeleteOutcome |
| Lifecycle.ForeignRequestsLeaveStore | backend/routes/tasks.js:154-157 | an update or delete aimed at a missing task or at another user's task is refused, and the store is left exactly as it was |
| Lifecycle.Commit | backend/routes/tasks.js:226-231 | a refused request leaves the store unchanged; an accepted one replaces only the task's own entry |
| Lifecycle.OwnershipFirst | backend/routes/tasks.js:145-157 | an invalid body gets 400 first; a valid body for a missing or foreign task gets 404, and so does any delete of one |
| Lifecycle.CompletedLock | backend/routes/tasks.js:159-165 | a completed task accepts no update; `isCompleted: false` gets "Cannot unmark", anything else gets "Cannot update a completed task" |
| Lifecycle.NotStartedRule | backend/routes/tasks.js:167-170 | asking to complete, with true or "true", an open task that has not started is refused |
| Lifecycle.CompletionShortcut | backend/routes/tasks.js:172-181 | a completion-only body on an open, started task sets `isCompleted` and `updatedAt` and nothing else, with no time check |
| Lifecycle.GeneralUpdateOrder | backend/routes/tasks.js:183-213 | refusals come in this order: un-completing an expired task, end not after start, start outside a week of now, end before now; the update succeeds exactly when none applies |
| Lifecycle.UpdateChangesOnlySentFields | backend/routes/tasks.js:215-230 | a successful update writes exactly the fields sent, trimmed where the validator trims and `isCompleted` as the store casts it, plus `updatedAt`; id, owner, creation time and the deleted flag never change |
| Lifecycle.UpdateKeepsWindows | backend/routes/tasks.js:190-213 | after a general update a sent start is within a week of now, a sent end is not in the past, and a task sent both times ends after it starts |
| Lifecycle.EndOnlyUpdateCanInvert | backend/routes/tasks.js:191-195 | moving only the end before the current start is accepted and leaves a task that ends before it starts |
| Lifecycle.NumericTrueSkipsNotStarted | backend/routes/tasks.js:168 | `isCompleted: 1` passes validation, skips the not-started rule and completes a task that has not started |
| Lifecycle.FailedAndDeletedStillWritable | backend/routes/tasks.js:172-224 | a failed task can still be completed, and a soft-deleted task can still be renamed and stays deleted |
| Lifecycle.DeleteOutcome | backend/routes/tasks.js:239-253 | delete succeeds exactly on the caller's own task not yet past its end, whatever its flags; past the end it gets "Cannot delete an expired task"; success sets only `isDeleted` and `updatedAt`, and the task then shows as deleted |
| Analytics.SuccessRate | backend/routes/tasks.js:285 | the rate is 0 without tasks, never above 100, and otherwise the whole percentage nearest to completed over total, halves rounded up |
| Analytics.Summarize | backend/routes/tasks.js:263-293 | the analytics route's counts; Analytics.SummaryBounds, Analytics.SummaryPartition and Analytics.SummaryAgreesWithStatus state them |
| Analytics.SummaryBounds | backend/routes/tasks.js:269-286 | no count exceeds the total, the rate is a percentage, and an active task is never completed, failed or deleted |
| Analytics.SummaryPartition | backend/routes/tasks.js:269-277 | completed, failed, active and deleted-before-end add up to the total |
| Analytics.SummaryAgreesWithStatus | frontend/src/pages/Analytics.js:61-68 | the active and deleted counts are the numbers of tasks the dashboard shows as active and as deleted |
| Analytics.PieData | frontend/src/pages/Analytics.js:80-88 | the pie holds exactly the legend's categories with a non-zero count, in legend order |
| Analytics.PieDataExact | frontend/src/pages/Analytics.js:80-88 | the pie holds exactly the non-empty categories, each once with its count, in legend order |
| Analytics.InRange | frontend/src/pages/Analytics.js:39-55 | the tasks of the chosen time range; Analytics.InRangeSelects states which |
| Analytics.InRangeSelects | frontend/src/pages/Analytics.js:39-55 | all time keeps every task; a week or month keeps, in order, exactly the tasks created from the range start through now |
| Analytics.ClientSummary | frontend/src/pages/Analytics.js:57-78 | over all time the client's summary is the server's |
| Analytics.InRangeIsFilter | frontend/src/pages/Analytics.js:39-55 | whatever the range, the tasks in range are exactly, in order, the tasks created within it (every task for all time) |
| Analytics.DayBucket | frontend/src/pages/Analytics.js:100-110 | one bar: the tasks of the given list created on that day, and how many of them are completed and failed; Analytics.WeeklyBarsCount states the counts |
| Analytics.WeeklyData | frontend/src/pages/Analytics.js:90-111 | one bar per day of the week in order, counted over the tasks of the chosen range, each counting no more tasks than there are |
| Analytics.WeeklyBarsCount | frontend/src/pages/Analytics.js:90-111 | each day's bar has as total the number of tasks created that day within the chosen range, as completed the number of those completed, and as failed the number of those open and past their end |
| Analytics.AllTimeBarsCountEveryTask | frontend/src/pages/Analytics.js:90-111 | over all time each day's bar counts every task created that day |
| Analytics.WeeklyBucketsBounded | frontend/src/pages/Analytics.js:103-110 | in every bar completed and failed are disjoint parts of the total |
| Dashboard.Visible | frontend/src/pages/Dashboard.js:138-152 | the dashboard's filtered list; Dashboard.VisibleSelects states which tasks it keeps |
| Dashboard.VisibleSelects | frontend/src/pages/Dashboard.js:138-152 | a recognised filter keeps, in order, exactly the tasks with that status; any other value shows every task |
| Dashboard.DefaultViewIsActive | frontend/src/pages/Dashboard.js:138-142 | the "active" view holds exactly the tasks the analytics count as active |
| Dashboard.CanEditOrDelete | frontend/src/pages/Dashboard.js:154-158 | the buttons are live exactly on active cards; Dashboard.ButtonsAgreeWithServer states what the server does with them |
| Dashboard.ShowsUpcoming | frontend/src/pages/Dashboard.js:199-208 | the Upcoming badge is on an active card whose start is ahead; Dashboard.ButtonsAgreeWithServer states that completing such a card is refused |
| Dashboard.ButtonsAgreeWithServer | frontend/src/pages/Dashboard.js:154-209 | on a card with live buttons, the server accepts delete; "Mark as Complete" on an Upcoming card is refused as not started, and on any other live card it succeeds and the task shows completed |
| Dashboard.CompletedCardsLocked | backend/routes/tasks.js:159-165 | a completed card, shown disabled, is refused every valid update by the server |
| Dashboard.UpdateKeepsId | backend/routes/tasks.js:226-231 | a successful update returns the task under the id it was sent to |
| Dashboard.ReplaceById | frontend/src/pages/Dashboard.js:67-69 | every entry with the id becomes the server's answer; every other entry is unchanged, and the length stays the same |
| Dashboard.MarkDeletedLocally | frontend/src/pages/Dashboard.js:81-83 | every entry with the id becomes deleted, with all its other fields unchanged; every other entry is unchanged |
| Dashboard.ReplaceMirrorsUpdate | frontend/src/pages/Dashboard.js:64-100 | replacing the entry with the server's answer keeps the local list equal to the store |
| Dashboard.MarkDeletedMirrorsDelete | frontend/src/pages/Dashboard.js:78-88 | marking the entry deleted keeps the list equal to the store except for `updatedAt`, and the entry shows as deleted |
| DisplayDate.Groups | frontend/src/pages/History.js:16-18 | the groups exist exactly for `dd-MM-yyyy` texts and, joined with dashes, give the text back |
| DisplayDate.ParseDisplayDate | frontend/src/pages/History.js:13-22 | an empty or off-pattern text gives no date; otherwise a date exactly when the digits name a real day, and then midnight of that day |
| DisplayDate.ToIsoDatePart | frontend/src/components/TaskModal.js:156-171 | the result is empty or a valid `yyyy-MM-dd` date |
| DisplayDate.ToIsoDatePartAccepts | frontend/src/components/TaskModal.js:158-170 | off-pattern texts give ""; on the pattern the result is non-empty exactly when the digits name a real day |
| DisplayDate.ToIsoDatePartRoundTrip | frontend/src/components/TaskModal.js:160-170 | swapping the groups back gives the typed text, and both texts name the same day |
| DisplayDate.ParsersAgree | frontend/src/pages/History.js:13-22 | in the model, where a text naming a day that does not exist is no date, History's parser and the form's converter accept the same texts and name the same day |
| DisplayDate.LeapDayAcceptedIffLeapYear | frontend/src/components/TaskModal.js:164-170 | in every four-digit year, 29-02 is accepted exactly when the year is a leap year |
| DisplayDate.ShortMonthsEndOnThirtieth | frontend/src/components/TaskModal.js:164-170 | in every four-digit year, the 31st of April, June, September and November is refused and the 30th is accepted |
| History.NonActive | frontend/src/pages/History.js:33-38 | the fetched tasks that are not active; History.NonActiveExact states which |
| History.NonActiveExact | frontend/src/pages/History.js:33-38 | the kept list is, in order, exactly the completed, deleted or expired tasks, and with the active count it adds up to all tasks |
| History.StatusMatches | frontend/src/pages/History.js:110-113 | the status choice tests the flags and the clock, not the badge; History.ChoiceAndBadgeDiffer shows where the two part |
| History.Shown | frontend/src/pages/History.js:100-113 | the row filter; History.ShownByDays states it in days |
| History.ShownByDays | frontend/src/pages/History.js:100-113 | a row is shown exactly when its end falls on a day from the From day through the To day, both included, and it matches the status choice |
| History.HistoryView | frontend/src/pages/History.js:99-114 | the rows shown; History.HistoryViewSelects states which |
| History.HistoryViewSelects | frontend/src/pages/History.js:99-114 | the rows are, in order, exactly the kept tasks the filter admits; with no dates and "all" every kept task shows |
| History.Badge | frontend/src/pages/History.js:121-126 | the badge is never "active" |
| History.BadgeAgreesWithStatus | frontend/src/pages/History.js:121-126 | on every kept row, at fetch time or later, the badge is the dashboard's status |
| History.ChoiceAndBadgeDiffer | frontend/src/pages/History.js:110-112 | a deleted task that ended unfinished shows under "failed" with a Deleted badge |
| TaskForm.Combine | frontend/src/components/TaskModal.js:151-154 | no date gives the empty text; otherwise the text begins with the date and adds the hour, the minute and two separators |
| TaskForm.ParseLocalDateTime | frontend/src/components/TaskModal.js:101-102 | a parsed form time is on a whole minute |
| TaskForm.CombineParses | frontend/src/components/TaskModal.js:151-154 | a converted date and a select hour and minute combine into a text denoting that minute of that day |
| TaskForm.ValidateForm | frontend/src/components/TaskModal.js:85-111 | the form's error map; TaskForm.ValidateFormCases states when it is empty and what each field gets |
| TaskForm.ValidateFormCases | frontend/src/components/TaskModal.js:85-111 | the form submits exactly when the trimmed title is not empty, both times are present, and the end is not at or before the start; the title and start fields carry their 'required' messages exactly when empty; the end field carries an error exactly when it is empty or at or before a present start, with 'End time must be after start time' in the second case |
| TaskForm.ValidateFormOnCombinedTimes | frontend/src/components/TaskModal.js:100-107 | for times the selects produce, the form submits exactly when the title has text and the end is after the start |
| TaskForm.PickerAgreesWithHistory | backend/routes/tasks.js:34 | a date the converter produces parses, on the server, to the same midnight History's parser gives the typed text |
| TaskForm.RecurrencePayload | frontend/src/components/TaskModal.js:120-125 | the recurrence member the form adds; TaskForm.PayloadAccepted states how the server reads it |
| TaskForm.Sent | frontend/src/components/TaskModal.js:120-125 | the payload as the server receives it; TaskForm.PayloadAccepted states how the server reads it |
| TaskForm.PayloadAccepted | frontend/src/components/TaskModal.js:120-125 | the server accepts every recurrence the form submits and reads the plan the form chose: a series for daily, weekly, and custom with dates, a single task otherwise |
| TaskForm.MaxStart | frontend/src/components/TaskModal.js:62-67 | the bound the form computes is the server's start-window end cut to the minute; only its day is used, as the custom-date picker's last selectable day |
| TaskForm.LastPickableDayDropsLateStarts | frontend/src/components/TaskModal.js:256 | the custom-date picker's last selectable day is the day of the thirty-day window end; a date picked on it, for a base start later in the day than now, is past the cutoff and dropped |
| TaskForm.AddCustomDate | frontend/src/components/TaskModal.js:263-269 | the Add button's update of the date list; TaskForm.AddCustomDateKeepsSet states it |
| TaskForm.AddCustomDateKeepsSet | frontend/src/components/TaskModal.js:263-269 | an empty picker changes nothing; adding never duplicates, removes or reorders a date; afterwards the list holds the old dates and the picked one |
| Reminders.IsCandidate | backend/services/notificationScheduler.js:15-22 | the query: open, undeleted tasks ending from now through five minutes ahead; Reminders.TickSends states that only these are reminded |
| Reminders.Stamp | backend/services/notificationScheduler.js:59-61 | the end time read back from a key, none for a negative one; Reminders.Evict states what cleanup keeps |
| Reminders.Visit | backend/services/notificationScheduler.js:26-54 | each key is sent at most once and never when already recorded; only verified owners are sent to; every verified owner's key is recorded afterwards; the key set grows by exactly the keys sent |
| Reminders.VisitIgnoresOutcomes | backend/services/notificationScheduler.js:47-53 | whether a send succeeds does not change the sweep |
| Reminders.Evict | backend/services/notificationScheduler.js:56-64 | cleanup drops keys whose end is more than an hour before now and keeps the rest |
| Reminders.Tick | backend/services/notificationScheduler.js:9-69 | one sweep; stated by Reminders.TickSends and Reminders.TickCoversDue |
| Reminders.TickSends | backend/services/notificationScheduler.js:9-64 | a sweep reminds only open, undeleted tasks of verified owners ending within five minutes, each key once and none already recorded, and keeps every key that ended within the last hour |
| Reminders.TickCoversDue | backend/services/notificationScheduler.js:15-37 | a due task of a verified owner not yet reminded is reminded in that sweep; an unverified owner's task leaves no key |
| Reminders.Run | backend/services/notificationScheduler.js:84-87 | sweeps run one after another, each starting from the keys the last one left; Reminders.RunRemindsOnce states it |
| Reminders.RunRemindsOnce | backend/services/notificationScheduler.js:26-64 | over sweeps in time order, no task and end time is reminded twice, none recorded at the start is reminded, and every reminder ends no earlier than the first sweep |
| Reminders.RunFromStartRemindsOnce | backend/services/notificationScheduler.js:6-64 | from an empty set, sweeps in time order remind each task and end time at most once |
| Reminders.OverlappingSweepsResend | backend/services/notificationScheduler.js:26-53 | two sweeps that both start from the same key set, as overlapping cron runs do, both remind a due task of a verified owner, so the reminder goes out twice |

## Left out

- Persistence, sessions and authentication: the store is a map, the caller is an owner id,
  and ids and `createdAt` are given, not generated.
- The route responses beyond their outcome: status codes and JSON bodies are the `Result`.
  The 500 branches for store errors are left out. Among them: an id that is not a valid
  ObjectId makes `findOne` throw a CastError (tasks.js:154 and 242), which the catch answers
  with 500 (tasks.js:232-235 and 256-259). Lifecycle.OwnershipFirst's 404 therefore holds only
  for well-formed ids; ids are not modelled as text.
- Concurrency between requests. Each request reads the clock once, although the update route
  reads it up to three times.
- JavaScript `Date`, time zones and daylight saving: one fixed zone with 24-hour days.
  `Date.parse` of a custom date (UTC midnight) is taken as midnight in that zone.
- The express-validator ISO 8601 and priority checks are one given verdict,
  `fieldsValid`. Times are the instants they denote.
- The client's clock and the server's clock are the same `now`.
- The cron schedule, the e-mail text and the send itself: a send is a given outcome.
- The `console` output of the sweep.
- Rendering, toasts, the modal's open and close state, the `setTimeout` re-renders, the
  in-place `customDates.sort()` at render time, and the date picker's minimum.
- `handleStartTimeChange` in TaskModal.js (lines 130-146), which moves the end an hour past a
  new start: a form convenience outside the lifecycle rules.
- The start of the week and of the month, and the days of the current week in
  Analytics.js: they are parameters.
- Analytics.SuccessRate: floating-point division is modelled as exact arithmetic rounded half
  up. For shares that land exactly on a half this can differ from `Math.round` by one.
- DisplayDate.ParseDisplayDate: a text naming a day that does not exist (31-04-2024) is
  modelled as no date. A V8-based browser's `Date` rolls it over to a later day, and other
  engines return an invalid date.
- DisplayDate.ParsersAgree: holds in the model, where a text naming a day that does not exist
  is no date. In a V8-based browser History's parser rolls such a text over to a later day,
  while the form's converter refuses it, so there the two disagree.
- TaskForm.ParseLocalDateTime: only `yyyy-MM-ddTHH:mm` with a real date, hour 00-23 and
  minute 00-59 parses; other texts `new Date` would accept are treated as invalid dates.
- TaskForm.CombineParses: states only the texts the form's own selects produce.
- TaskForm.ParseIsoDate: only `yyyy-MM-dd` texts. Other texts `Date.parse` accepts in a
  custom date list are not modelled.
- Reminders.Stamp: task ids are assumed to be hexadecimal, so the key splits back into id and
  end time. A negative end time reads back as NaN and is never evicted.
- Reminders.Run: the sweeps run one after another. Cron starts one every minute without
  waiting for the previous one, and overlapping sweeps are not modelled by it;
  Reminders.OverlappingSweepsResend shows what they do.
- Reminders.RunRemindsOnce: holds only for sweeps that do not overlap. Overlapping sweeps can
  remind a task twice. The key set also lives in memory and is lost on restart, which is not
  modelled.
- Reminders.RunFromStartRemindsOnce: holds only for sweeps that do not overlap, for the same
  reason.

=== FILE: analytics.dfy ===
/** The analytics reduction: the server's `GET /analytics` (backend/routes/tasks.js) and its
    client-side twin with the pie and weekly views (frontend/src/pages/Analytics.js). */
module Analytics {
  import opened Tasks
  import opened Status
  import opened Seqs
  import opened Clock

  datatype Summary = Summary(total: nat, completed: nat, failed: nat, deleted: nat, active: nat, successRate: nat)

  /** `Math.round(completed / total * 100)`, or 0 without tasks: the whole percentage nearest
      to the completed share, halves rounded up. */
  function SuccessRate(completed: nat, total: nat): (r: nat)
    requires completed <= total
    ensures r <= 100
    ensures total == 0 ==> r == 0
    ensures total > 0 ==> 2 * total * r - total <= 200 * completed < 2 * total * r + total
  {
    if total == 0 then 0
    else
      RoundedShare(completed, total);
      (200 * completed + total) / (2 * total)
  }

  lemma MulLe(x: int, y: int, b: nat)
    requires x <= y
    ensures x * b <= y * b
  {
    assert y * b - x * b == (y - x) * b;
  }

  /** Flooring `(200c + t) / 2t` brackets `200c` within `t` of a multiple of `2t`. */
  lemma RoundedShare(c: nat, t: nat)
    requires 0 < t && c <= t
    ensures var q := (200 * c + t) / (2 * t);
            2 * t * q <= 200 * c + t < 2 * t * q + 2 * t && 0 <= q <= 100
  {
    var a := 200 * c + t;
    var b := 2 * t;
    var q := a / b;
    assert a == q * b + a % b;
    assert 0 <= a % b < b;
    if 101 <= q {
      MulLe(101, q, b);
    }
  }

  /** The counts of a task list at time `now`. */
  function Summarize(tasks: seq<Task>, now: int): Summary
  {
    var completed := Count(tasks, (t: Task) => t.isCompleted);
    Summary(
      |tasks|,
      completed,
      Count(tasks, (t: Task) => IsFailedAt(t, now)),
      Count(tasks, (t: Task) => t.isDeleted),
      Count(tasks, (t: Task) => IsActiveAt(t, now)),
      SuccessRate(completed, |tasks|))
  }

  /** No count exceeds the total, the rate is a percentage, and an active task is never counted
      as completed, failed or deleted. */
  lemma SummaryBounds(tasks: seq<Task>, now: int)
    ensures var s := Summarize(tasks, now);
            && s.completed <= s.total && s.failed <= s.total && s.deleted <= s.total && s.active <= s.total
            && s.successRate <= 100
            && s.active + s.completed <= s.total
            && s.active + s.failed <= s.total
            && s.active + s.deleted <= s.total
  {
    CountDisjointBound(tasks, (t: Task) => IsActiveAt(t, now), (t: Task) => t.isCompleted);
    CountDisjointBound(tasks, (t: Task) => IsActiveAt(t, now), (t: Task) => IsFailedAt(t, now));
    CountDisjointBound(tasks, (t: Task) => IsActiveAt(t, now), (t: Task) => t.isDeleted);
  }

  /** Open tasks that were deleted before their end: the only tasks that are neither completed,
      failed nor active. */
  predicate IsDeletedOpenAt(t: Task, now: int)
  {
    !t.isCompleted && t.isDeleted && t.endTime >= now
  }

  /** Completed, failed, active and deleted-while-open split the tasks: the four counts add
      up to the total, so failed and deleted overlap exactly on expired deleted open tasks. */
  lemma SummaryPartition(tasks: seq<Task>, now: int)
    ensures var s := Summarize(tasks, now);
            s.completed + s.failed + s.active + Count(tasks, (t: Task) => IsDeletedOpenAt(t, now)) == s.total
  {
    var c := (t: Task) => t.isCompleted;
    var f := (t: Task) => IsFailedAt(t, now);
    var a := (t: Task) => IsActiveAt(t, now);
    var l := (t: Task) => IsDeletedOpenAt(t, now);
    var open := (t: Task) => !t.isCompleted;
    var notExpired := (t: Task) => !t.isCompleted && t.endTime >= now;
    var all := (t: Task) => true;
    CountDisjointUnion(tasks, a, l, notExpired);
    CountDisjointUnion(tasks, f, notExpired, open);
    CountDisjointUnion(tasks, c, open, all);
    FilterKeepsAll(tasks, all);
  }

  /** The active count is the number of tasks the status resolver calls active, and the deleted
      count the number it calls deleted. */
  lemma SummaryAgreesWithStatus(tasks: seq<Task>, now: int)
    ensures Summarize(tasks, now).active == Count(tasks, (t: Task) => Resolve(t, now) == Active)
    ensures Summarize(tasks, now).deleted == Count(tasks, (t: Task) => Resolve(t, now) == Deleted)
  {
    CountCongruent(tasks, (t: Task) => IsActiveAt(t, now), (t: Task) => Resolve(t, now) == Active);
    CountCongruent(tasks, (t: Task) => t.isDeleted, (t: Task) => Resolve(t, now) == Deleted);
  }

  datatype Category = CompletedSlice | FailedSlice | ActiveSlice | DeletedSlice

  datatype Slice = Slice(category: Category, value: nat)

  /** The four slices in legend order, empty ones included. */
  function AllSlices(s: Summary): seq<Slice>
  {
    [Slice(CompletedSlice, s.completed), Slice(FailedSlice, s.failed),
     Slice(ActiveSlice, s.active), Slice(DeletedSlice, s.deleted)]
  }

  /** `getPieChartData`. */
  function PieData(s: Summary): seq<Slice>
  {
    Filter(AllSlices(s), (x: Slice) => x.value > 0)
  }

  /** The pie holds exactly the non-empty categories, each once with its count, in the order
      Completed, Failed, Active, Deleted. */
  lemma PieDataExact(s: Summary)
    ensures forall x :: x in PieData(s) <==> x in AllSlices(s) && x.value > 0
    ensures IsSubsequence(PieData(s), AllSlices(s))
    ensures (Slice(CompletedSlice, s.completed) in PieData(s)) <==> s.completed > 0
    ensures (Slice(FailedSlice, s.failed) in PieData(s)) <==> s.failed > 0
    ensures (Slice(ActiveSlice, s.active) in PieData(s)) <==> s.active > 0
    ensures (Slice(DeletedSlice, s.deleted) in PieData(s)) <==> s.deleted > 0
  {
    FilterIsSubsequence(AllSlices(s), (x: Slice) => x.value > 0);
  }

  datatype TimeRange = Week | Month | AllTime

  /** A task created within the chosen range: any task for all time, otherwise one created
      between the range start and now, both ends included. */
  predicate CreatedInRange(t: Task, range: TimeRange, rangeStart: int, now: int)
  {
    range == AllTime || rangeStart <= t.createdAt <= now
  }

  /** `getFilteredTasks`: all tasks, or those created between the range start (start of the
      week or of the month, computed by the caller) and now, both ends included. */
  function InRange(tasks: seq<Task>, range: TimeRange, rangeStart: int, now: int): seq<Task>
  {
    if range == AllTime then tasks
    else Filter(tasks, (t: Task) => rangeStart <= t.createdAt <= now)
  }

  /** Whatever the range, the tasks in range are the tasks created within it. */
  lemma InRangeIsFilter(tasks: seq<Task>, range: TimeRange, rangeStart: int, now: int)
    ensures InRange(tasks, range, rangeStart, now) == Filter(tasks, (t: Task) => CreatedInRange(t, range, rangeStart, now))
  {
    if range == AllTime {
      FilterKeepsAll(tasks, (t: Task) => CreatedInRange(t, range, rangeStart, now));
    } else {
      CountCongruent(tasks, (t: Task) => rangeStart <= t.createdAt <= now,
                     (t: Task) => CreatedInRange(t, range, rangeStart, now));
    }
  }

  /** The all-time range is the identity; any other range keeps, in order, exactly the tasks
      created within it. */
  lemma InRangeSelects(tasks: seq<Task>, range: TimeRange, rangeStart: int, now: int)
    ensures range == AllTime ==> InRange(tasks, range, rangeStart, now) == tasks
    ensures IsSubsequence(InRange(tasks, range, rangeStart, now), tasks)
    ensures range != AllTime ==>
              forall t :: t in InRange(tasks, range, rangeStart, now) <==> t in tasks && rangeStart <= t.createdAt <= now
  {
    if range == AllTime {
      FilterKeepsAll(tasks, (t: Task) => true);
      FilterIsSubsequence(tasks, (t: Task) => true);
    } else {
      FilterIsSubsequence(tasks, (t: Task) => rangeStart <= t.createdAt <= now);
    }
  }

  /** `getAnalyticsData`: the summary of the tasks in range. Over all time it is the server's. */
  function ClientSummary(tasks: seq<Task>, range: TimeRange, rangeStart: int, now: int): (s: Summary)
    ensures range == AllTime ==> s == Summarize(tasks, now)
  {
    Summarize(InRange(tasks, range, rangeStart, now), now)
  }

  datatype Bucket = Bucket(day: int, completed: nat, failed: nat, total: nat)

  /** One bar of `getWeeklyData`: the tasks created on `day`, how many are completed and how
      many failed. */
  function DayBucket(tasks: seq<Task>, day: int, now: int): Bucket
  {
    var dayTasks := Filter(tasks, (t: Task) => DayOf(t.createdAt) == day);
    Bucket(day, Count(dayTasks, (t: Task) => t.isCompleted), Count(dayTasks, (t: Task) => IsFailedAt(t, now)), |dayTasks|)
  }

  /** `getWeeklyData`: one bar per day of the current week (the days are supplied by the
      caller), each counted over the tasks of the chosen range. */
  function WeeklyData(tasks: seq<Task>, range: TimeRange, rangeStart: int, days: seq<int>, now: int): (r: seq<Bucket>)
    ensures |r| == |days|
    ensures forall i :: 0 <= i < |r| ==> r[i].day == days[i] && r[i].total <= |tasks|
  {
    var kept := InRange(tasks, range, rangeStart, now);
    seq(|days|, i requires 0 <= i < |days| => DayBucket(kept, days[i], now))
  }

  /** In every bar, completed and failed are disjoint parts of the total. */
  lemma WeeklyBucketsBounded(tasks: seq<Task>, range: TimeRange, rangeStart: int, days: seq<int>, now: int)
    ensures forall b :: b in WeeklyData(tasks, range, rangeStart, days, now) ==> b.completed + b.failed <= b.total
  {
    var kept := InRange(tasks, range, rangeStart, now);
    forall b | b in WeeklyData(tasks, range, rangeStart, days, now)
      ensures b.completed + b.failed <= b.total
    {
      var dayTasks := Filter(kept, (t: Task) => DayOf(t.createdAt) == b.day);
      CountDisjointBound(dayTasks, (t: Task) => t.isCompleted, (t: Task) => IsFailedAt(t, now));
    }
  }

  /** Each bar counts the tasks created within the range on its day: all of them, the
      completed ones, and the open ones past their end. */
  lemma WeeklyBarsCount(tasks: seq<Task>, range: TimeRange, rangeStart: int, days: seq<int>, now: int)
    ensures forall i :: 0 <= i < |days| ==>
              && WeeklyData(tasks, range, rangeStart, days, now)[i].total
                   == Count(tasks, (t: Task) => CreatedInRange(t, range, rangeStart, now) && DayOf(t.createdAt) == days[i])
              && WeeklyData(tasks, range, rangeStart, days, now)[i].completed
                   == Count(tasks, (t: Task) => CreatedInRange(t, range, rangeStart, now) && DayOf(t.createdAt) == days[i]
                                                && t.isCompleted)
              && WeeklyData(tasks, range, rangeStart, days, now)[i].failed
                   == Count(tasks, (t: Task) => CreatedInRange(t, range, rangeStart, now) && DayOf(t.createdAt) == days[i]
                                                && IsFailedAt(t, now))
  {
    var inRange := (t: Task) => CreatedInRange(t, range, rangeStart, now);
    InRangeIsFilter(tasks, range, rangeStart, now);
    forall i | 0 <= i < |days|
      ensures var b := WeeklyData(tasks, range, rangeStart, days, now)[i];
              && b.total == Count(tasks, (t: Task) => CreatedInRange(t, range, rangeStart, now) && DayOf(t.createdAt) == days[i])
              && b.completed == Count(tasks, (t: Task) => CreatedInRange(t, range, rangeStart, now) && DayOf(t.createdAt) == days[i]
                                                          && t.isCompleted)
              && b.failed == Count(tasks, (t: Task) => CreatedInRange(t, range, rangeStart, now) && DayOf(t.createdAt) == days[i]
                                                       && IsFailedAt(t, now))
    {
      var onDay := (t: Task) => DayOf(t.createdAt) == days[i];
      var inDay := (t: Task) => CreatedInRange(t, range, rangeStart, now) && DayOf(t.createdAt) == days[i];
      FilterOfFilter(tasks, inRange, onDay, inDay);
      FilterOfFilter(tasks, inDay, (t: Task) => t.isCompleted,
                     (t: Task) => CreatedInRange(t, range, rangeStart, now) && DayOf(t.createdAt) == days[i] && t.isCompleted);
      FilterOfFilter(tasks, inDay, (t: Task) => IsFailedAt(t, now),
                     (t: Task) => CreatedInRange(t, range, rangeStart, now) && DayOf(t.createdAt) == days[i]
                                  && IsFailedAt(t, now));
    }
  }

  /** Over all time each bar counts every task created on its day. */
  lemma AllTimeBarsCountEveryTask(tasks: seq<Task>, rangeStart: int, days: seq<int>, now: int)
    ensures forall i :: 0 <= i < |days| ==>
              WeeklyData(tasks, AllTime, rangeStart, days, now)[i].total
                == Count(tasks, (t: Task) => DayOf(t.createdAt) == days[i])
  {
    WeeklyBarsCount(tasks, AllTime, rangeStart, days, now);
    forall i | 0 <= i < |days|
      ensures WeeklyData(tasks, AllTime, rangeStart, days, now)[i].total
                == Count(tasks, (t: Task) => DayOf(t.createdAt) == days[i])
    {
      CountCongruent(tasks, (t: Task) => CreatedInRange(t, AllTime, rangeStart, now) && DayOf(t.createdAt) == days[i],
                     (t: Task) => DayOf(t.createdAt) == days[i]);
    }
  }
}

=== FILE: calendar.dfy ===
/** The proleptic Gregorian calendar: leap years, month lengths (the day-of-month limits of
    section 5.7 of RFC 3339), day numbering from the epoch, and fixed-width decimal digit
    groups as they appear in `dd-MM-yyyy` and `yyyy-MM-dd` date texts. */
module Calendar {

  predicate IsLeapYear(year: int)
  {
    year % 4 == 0 && (year % 100 != 0 || year % 400 == 0)
  }

  /** The number of days of `month` (1 = January) in `year`. */
  function DaysInMonth(year: int, month: int): (n: int)
    requires 1 <= month <= 12
    ensures 28 <= n <= 31
    ensures n == 31 <==> month in {1, 3, 5, 7, 8, 10, 12}
    ensures n == 30 <==> month in {4, 6, 9, 11}
    ensures month == 2 ==> (n == 29 <==> IsLeapYear(year))
  {
    if month == 2 then (if IsLeapYear(year) then 29 else 28)
    else if month == 4 || month == 6 || month == 9 || month == 11 then 30
    else 31
  }

  /** `year-month-day` names a day that exists. */
  predicate IsCalendarDate(year: int, month: int, day: int)
  {
    1 <= month <= 12 && 1 <= day <= DaysInMonth(year, month)
  }

  /** Days from 0000-03-01 to the first of March of year `y`, counting in 400-year eras of
      146097 days. */
  function DaysBeforeMarch(y: int): int
  {
    var era := y / 400;
    var yoe := y - era * 400;
    era * 146097 + yoe * 365 + yoe / 4 - yoe / 100
  }

  /** Days from 1970-01-01 to the given date (negative before it), counting years from March
      so that February's length only matters at the end of a counted year. */
  function DaysFromCivil(year: int, month: int, day: int): int
    requires 1 <= month <= 12
  {
    var y := if month <= 2 then year - 1 else year;
    var mp := (month + 9) % 12;
    var doy := (153 * mp + 2) / 5 + day - 1;
    DaysBeforeMarch(y) + doy - 719468
  }

  /** Within a month, consecutive days are consecutive day numbers. */
  lemma NextDayInMonth(year: int, month: int, day: int)
    requires 1 <= month <= 12
    ensures DaysFromCivil(year, month, day + 1) == DaysFromCivil(year, month, day) + 1
  {
  }

  /** Counting multiples of `k` up to `x` and up to `x - 1` differs exactly at a multiple, for
      the divisors of the leap-year rule. */
  lemma DivStep(x: int, k: int)
    requires k == 4 || k == 100 || k == 400
    ensures x / k - (x - 1) / k == (if x % k == 0 then 1 else 0)
  {
    if k == 4 {
      assert x / 4 - (x - 1) / 4 == (if x % 4 == 0 then 1 else 0);
    } else if k == 100 {
      assert x / 100 - (x - 1) / 100 == (if x % 100 == 0 then 1 else 0);
    } else {
      assert x / 400 - (x - 1) / 400 == (if x % 400 == 0 then 1 else 0);
    }
  }

  /** Whole eras do not change a year's remainders by 4 and by 100. */
  lemma EraKeepsRemainders(era: int, yoe: int)
    ensures (era * 400 + yoe) % 4 == yoe % 4
    ensures (era * 400 + yoe) % 100 == yoe % 100
  {
    var q4 := yoe / 4;
    assert era * 400 + yoe == (era * 100 + q4) * 4 + yoe % 4;
    var q100 := yoe / 100;
    assert era * 400 + yoe == (era * 4 + q100) * 100 + yoe % 100;
  }

  /** A counted year inside an era has 366 days when the next year is a leap year, and 365
      otherwise. */
  lemma YearStepWithinEra(y: int)
    requires (y + 1) % 400 != 0
    ensures DaysBeforeMarch(y + 1) == DaysBeforeMarch(y) + (if IsLeapYear(y + 1) then 366 else 365)
  {
    var era := y / 400;
    var yoe := y - era * 400;
    assert (y + 1) / 400 == era && (y + 1) - era * 400 == yoe + 1;
    DivStep(yoe + 1, 4);
    DivStep(yoe + 1, 100);
    EraKeepsRemainders(era, yoe + 1);
    assert (y + 1) % 400 == yoe + 1;
  }

  /** The last counted year of an era ends before a year divisible by 400, a leap year. */
  lemma YearStepAcrossEra(y: int)
    requires (y + 1) % 400 == 0
    ensures DaysBeforeMarch(y + 1) == DaysBeforeMarch(y) + 366
    ensures IsLeapYear(y + 1)
  {
    var era := y / 400;
    assert y == era * 400 + 399;
    assert (y + 1) / 400 == era + 1 && (y + 1) - (era + 1) * 400 == 0;
    assert (y + 1) % 4 == 0 by {
      assert y + 1 == (era + 1) * 100 * 4;
    }
  }

  /** The first of March follows the last day of February, leap year or not. */
  lemma MarchFollowsFebruary(year: int)
    ensures DaysFromCivil(year, 3, 1) == DaysFromCivil(year, 2, DaysInMonth(year, 2)) + 1
  {
    if year % 400 == 0 {
      YearStepAcrossEra(year - 1);
    } else {
      YearStepWithinEra(year - 1);
    }
  }

  /** Day numbers run on from the last day of a month to the first of the next. */
  lemma NextMonth(year: int, month: int)
    requires 1 <= month <= 11
    ensures DaysFromCivil(year, month + 1, 1) == DaysFromCivil(year, month, DaysInMonth(year, month)) + 1
  {
    if month == 2 {
      MarchFollowsFebruary(year);
    }
  }

  /** Day numbers run on from the thirty-first of December to the first of January. */
  lemma NextYear(year: int)
    ensures DaysFromCivil(year + 1, 1, 1) == DaysFromCivil(year, 12, 31) + 1
  {
  }

  /** The epoch, 1970-01-01, is day zero. */
  lemma EpochIsDayZero()
    ensures DaysFromCivil(1970, 1, 1) == 0
  {
  }

  predicate IsDigit(c: char)
  {
    '0' <= c <= '9'
  }

  predicate AllDigits(s: string)
  {
    forall i :: 0 <= i < |s| ==> IsDigit(s[i])
  }

  /** The number a string of decimal digits spells, most significant digit first. */
  function DigitsValue(s: string): (n: nat)
    requires AllDigits(s)
    ensures |s| <= 1 ==> n < 10
    ensures |s| == 2 ==> n < 100
    ensures |s| == 3 ==> n < 1000
    ensures |s| == 4 ==> n < 10000
  {
    if |s| == 0 then 0
    else DigitsValue(s[..|s| - 1]) * 10 + (s[|s| - 1] as int - '0' as int)
  }
}

=== FILE: clock.dfy ===
/** Time as integer milliseconds in one fixed time zone without daylight saving, the
    calendar-day and minute-of-day views of an instant that `Date#getHours`,
    `Date#getMinutes` and `Date#setHours` give, and the start-time admission windows
    (backend/routes/tasks.js). */
module Clock {

  const SecondMs: int := 1000
  const MinuteMs: int := 60 * SecondMs
  const HourMs: int := 60 * MinuteMs
  const DayMs: int := 24 * HourMs
  const MinutesPerDay: int := 24 * 60

  /** How far back a start time may lie, on creation and on update. */
  const LookbackMs: int := 7 * DayMs
  /** How far ahead a one-off start time may lie. */
  const LookaheadMs: int := 7 * DayMs
  /** How far ahead a recurring start time, and every generated occurrence, may lie. */
  const HorizonMs: int := 30 * DayMs

  /** The calendar day an instant falls on, counted from the epoch day. */
  function DayOf(t: int): int
  {
    t / DayMs
  }

  /** Midnight of the day an instant falls on. */
  function Midnight(t: int): (m: int)
    ensures m <= t < m + DayMs
    ensures m % DayMs == 0
  {
    DayOf(t) * DayMs
  }

  /** `getHours() * 60 + getMinutes()`: the whole minutes since midnight, seconds dropped. */
  function MinuteOfDay(t: int): (m: int)
    ensures 0 <= m < MinutesPerDay
    ensures Midnight(t) + m * MinuteMs <= t < Midnight(t) + (m + 1) * MinuteMs
  {
    (t % DayMs) / MinuteMs
  }

  /** The instant `minute` minutes after midnight of `day`, seconds and milliseconds zero:
      `setHours(h, m, 0, 0)` applied to any instant of that day. */
  function At(day: int, minute: int): int
  {
    day * DayMs + minute * MinuteMs
  }

  /** Taking an instant apart into day and minute and putting it back together again
      recovers both parts. */
  lemma AtDecomposes(day: int, minute: int)
    requires 0 <= minute < MinutesPerDay
    ensures DayOf(At(day, minute)) == day
    ensures MinuteOfDay(At(day, minute)) == minute
    ensures At(day, minute) % MinuteMs == 0
  {
    var t := At(day, minute);
    assert 0 <= minute * MinuteMs < DayMs;
    assert t / DayMs == day;
    assert t % DayMs == minute * MinuteMs;
  }

  /** Two instants of the same minute-of-day on strictly ordered days are at least a day apart. */
  lemma AtLaterDay(d1: int, d2: int, minute: int)
    requires d1 < d2
    ensures At(d1, minute) + DayMs <= At(d2, minute)
  {
  }

  /** Instants at least a day apart fall on different, ordered days. */
  lemma DayOfAdvances(a: int, b: int)
    requires a + DayMs <= b
    ensures DayOf(a) < DayOf(b)
  {
    assert a == DayOf(a) * DayMs + a % DayMs;
    assert b == DayOf(b) * DayMs + b % DayMs;
  }

  /** On one day, an earlier minute is an earlier instant. */
  lemma AtMonotoneInMinute(day: int, m1: int, m2: int)
    requires m1 <= m2
    ensures At(day, m1) <= At(day, m2)
  {
  }

  /** Latest admissible start of a created task: a week ahead, thirty days for a recurring one. */
  function StartWindowEnd(now: int, recurring: bool): (e: int)
    ensures e == now + (if recurring then 30 else 7) * DayMs
  {
    now + (if recurring then HorizonMs else LookaheadMs)
  }

  /** A start time is admitted iff it lies in `[now - 7 days, StartWindowEnd(now, recurring)]`. */
  predicate StartInWindow(start: int, now: int, recurring: bool)
  {
    !(start < now - LookbackMs || start > StartWindowEnd(now, recurring))
  }

  /** The recurring window contains the one-off window. */
  lemma WindowWidens(start: int, now: int)
    requires StartInWindow(start, now, false)
    ensures StartInWindow(start, now, true)
  {
  }
}

=== FILE: create.dfy ===
/** Task creation (backend/routes/tasks.js `POST /`): body validation, the end-after-start
    and start-window checks, and either one task or the expanded recurring series. */
module Create {
  import opened Wrappers
  import opened Tasks
  import opened Clock
  import opened Text
  import opened Recurrence

  /** A create request body. `fieldsValid` is the verdict of the ISO 8601 checks on the two
      times and of the priority enum check; the times are the instants they denote. */
  datatype CreateRequest = CreateRequest(
    title: string,
    description: Option<string>,
    startTime: int,
    endTime: int,
    priority: Option<Priority>,
    recurrence: RecurrenceValue,
    fieldsValid: bool)

  /** A record handed to the store; the store adds id, flags (false) and timestamps. */
  datatype Draft = Draft(
    owner: UserId,
    title: string,
    description: Option<string>,
    startTime: int,
    endTime: int,
    priority: Priority)

  /** 201 with the one created task, or with the count of a recurring series. */
  datatype Created = Single(task: Draft) | Series(tasks: seq<Draft>)

  /** The validators' `errors` array, in the order the validators are declared. */
  function Problems(req: CreateRequest): (ps: seq<Problem>)
    ensures ps == [] <==> TitleValid(req.title) && req.fieldsValid && Validate(req.recurrence).Ok?
  {
    (if TitleValid(req.title) then [] else [TitleLength])
    + (if req.fieldsValid then [] else [FieldSyntax])
    + (match Validate(req.recurrence) case Ok(_) => [] case Err(p) => [p])
  }

  /** The record stored for one task of the request, at the given times. */
  function DraftAt(owner: UserId, req: CreateRequest, start: int, end: int): Draft
  {
    Draft(owner, Trim(req.title), TrimmedOption(req.description), start, end,
          match req.priority case Some(p) => p case None => DefaultPriority)
  }

  /** The handler, from validation to the records it inserts. */
  function Create(owner: UserId, req: CreateRequest, now: int): Result<Created, Rejection>
  {
    var problems := Problems(req);
    if problems != [] then Err(Invalid(problems))
    else
      var plan := Validate(req.recurrence).value;
      if req.endTime <= req.startTime then Err(EndNotAfterStart)
      else if !StartInWindow(req.startTime, now, IsRecurring(plan)) then Err(StartOutsideWindow)
      else if !IsRecurring(plan) then Ok(Single(DraftAt(owner, req, req.startTime, req.endTime)))
      else
        var os := Expand(plan, req.startTime, req.endTime, now);
        if |os| == 0 then Err(NoValidOccurrences)
        else Ok(Series(seq(|os|, i requires 0 <= i < |os| => DraftAt(owner, req, os[i].start, os[i].end))))
  }

  /** The rejections, in the order the handler tries them; none of them inserts anything. */
  lemma CreateRejections(owner: UserId, req: CreateRequest, now: int)
    ensures Problems(req) != [] ==> Create(owner, req, now) == Err(Invalid(Problems(req)))
    ensures Problems(req) == [] && req.endTime <= req.startTime ==> Create(owner, req, now) == Err(EndNotAfterStart)
    ensures Problems(req) == [] && req.endTime > req.startTime
            && !StartInWindow(req.startTime, now, IsRecurring(Validate(req.recurrence).value))
            ==> Create(owner, req, now) == Err(StartOutsideWindow)
    ensures Create(owner, req, now).Ok? <==>
              && Problems(req) == []
              && req.endTime > req.startTime
              && StartInWindow(req.startTime, now, IsRecurring(Validate(req.recurrence).value))
              && (IsRecurring(Validate(req.recurrence).value) ==>
                    Expand(Validate(req.recurrence).value, req.startTime, req.endTime, now) != [])
  {
  }

  /** A one-off request stores exactly one task at the requested times, which end after they
      start and start within a week of now; an absent priority becomes medium. */
  lemma CreateSingle(owner: UserId, req: CreateRequest, now: int)
    requires Create(owner, req, now).Ok?
    requires !IsRecurring(Validate(req.recurrence).value)
    ensures Create(owner, req, now) == Ok(Single(DraftAt(owner, req, req.startTime, req.endTime)))
    ensures req.startTime < req.endTime
    ensures now - 7 * DayMs <= req.startTime <= now + 7 * DayMs
    ensures req.priority.None? ==> Create(owner, req, now).value.task.priority == Medium
  {
  }

  /** A recurring request stores one task per expanded occurrence, none of them empty, past or
      beyond thirty days, each at the base times on its own day, all with the same title,
      description and priority, and never zero of them. */
  lemma CreateSeries(owner: UserId, req: CreateRequest, now: int)
    requires Create(owner, req, now).Ok?
    requires IsRecurring(Validate(req.recurrence).value)
    ensures Create(owner, req, now).value.Series?
    ensures var ts := Create(owner, req, now).value.tasks;
            && |ts| == |Expand(Validate(req.recurrence).value, req.startTime, req.endTime, now)| > 0
            && forall i :: 0 <= i < |ts| ==>
                 && ts[i].owner == owner
                 && ts[i].title == Trim(req.title)
                 && ts[i].startTime < ts[i].endTime
                 && now <= ts[i].startTime <= now + 30 * DayMs
                 && OnBaseTimes(Occurrence(ts[i].startTime, ts[i].endTime), req.startTime, req.endTime)
  {
    var os := Expand(Validate(req.recurrence).value, req.startTime, req.endTime, now);
    var ts := Create(owner, req, now).value.tasks;
    forall i | 0 <= i < |ts|
      ensures Occurrence(ts[i].startTime, ts[i].endTime) == os[i]
    {
    }
  }

  /** A recurring request whose end time of day is not after its start time of day (a task
      running past midnight) is always refused with the empty-series message once it gets
      past the earlier checks. */
  lemma OvernightSeriesRefused(owner: UserId, req: CreateRequest, now: int)
    requires Problems(req) == []
    requires IsRecurring(Validate(req.recurrence).value)
    requires req.startTime < req.endTime && StartInWindow(req.startTime, now, true)
    requires MinuteOfDay(req.endTime) <= MinuteOfDay(req.startTime)
    ensures Create(owner, req, now) == Err(NoValidOccurrences)
  {
    InvertedTimesYieldNothing(Validate(req.recurrence).value, req.startTime, req.endTime, now);
  }

  /** A custom date beyond the thirty-day horizon alone yields the empty-series refusal. */
  lemma CustomBeyondHorizonRefused(owner: UserId, req: CreateRequest, now: int, date: int)
    requires TitleValid(req.title) && req.fieldsValid
    requires req.recurrence == Object(Some("custom"), Some([Some(date)]))
    requires req.startTime < req.endTime && StartInWindow(req.startTime, now, true)
    requires Midnight(date) > now + HorizonMs
    ensures Create(owner, req, now) == Err(NoValidOccurrences)
  {
    var parsed := ParsedDates([Some(date)]);
    assert parsed.Some? && parsed.value == [date];
    assert Validate(req.recurrence) == Ok(Custom([date]));
    assert Problems(req) == [];
    LateDateDropped(date, req.startTime, req.endTime, now);
    assert Expand(Custom([date]), req.startTime, req.endTime, now) == [];
  }
}

=== FILE: dashboard.dfy ===
/** The dashboard's view of the caller's tasks (frontend/src/pages/Dashboard.js): the status
    filter, which cards offer edit, delete and complete, the Upcoming badge, and the local list
    updates applied after a successful update or delete. */
module Dashboard {
  import opened Wrappers
  import opened Tasks
  import opened Status
  import opened Seqs
  import opened Lifecycle

  /** The filter values the dashboard recognises; any other value shows every task. */
  const FilterNames: set<string> := {"active", "completed", "failed", "deleted"}

  /** `filteredTasks`. */
  function Visible(tasks: seq<Task>, filter: string, now: int): seq<Task>
  {
    if filter in FilterNames then Filter(tasks, (t: Task) => Name(Resolve(t, now)) == filter)
    else tasks
  }

  /** An unrecognised filter is the identity; a recognised one keeps, in order, exactly the
      tasks whose status has that name. */
  lemma VisibleSelects(tasks: seq<Task>, filter: string, now: int)
    ensures filter !in FilterNames ==> Visible(tasks, filter, now) == tasks
    ensures IsSubsequence(Visible(tasks, filter, now), tasks)
    ensures filter in FilterNames ==>
              forall t :: t in Visible(tasks, filter, now) <==> t in tasks && Name(Resolve(t, now)) == filter
  {
    if filter in FilterNames {
      FilterIsSubsequence(tasks, (t: Task) => Name(Resolve(t, now)) == filter);
    } else {
      FilterKeepsAll(tasks, (t: Task) => true);
      FilterIsSubsequence(tasks, (t: Task) => true);
    }
  }

  /** The default "active" view holds exactly the open, undeleted tasks not yet past their end,
      the ones the analytics count as active. */
  lemma DefaultViewIsActive(tasks: seq<Task>, now: int)
    ensures forall t :: t in Visible(tasks, "active", now) <==> t in tasks && IsActiveAt(t, now)
    ensures |Visible(tasks, "active", now)| == Count(tasks, (t: Task) => IsActiveAt(t, now))
  {
    CountCongruent(tasks, (t: Task) => Name(Resolve(t, now)) == "active", (t: Task) => IsActiveAt(t, now));
  }

  /** `canEditOrDelete`: the pencil, the bin and "Mark as Complete" are live only on active cards. */
  predicate CanEditOrDelete(t: Task, now: int)
  {
    Resolve(t, now) == Active
  }

  /** The Upcoming badge: an active card whose start is still ahead. */
  predicate ShowsUpcoming(t: Task, now: int)
  {
    Resolve(t, now) == Active && now < t.startTime
  }

  /** The body "Mark as Complete" sends. */
  const CompleteClick: UpdateRequest :=
    UpdateRequest(None, None, None, None, Flag(true), None, true)

  /** At one instant the card's buttons and the server agree: deleting an active card is
      accepted; completing an Upcoming card is refused as not started; completing an active
      card that is not Upcoming is accepted and yields a completed task. */
  lemma ButtonsAgreeWithServer(store: Store, owner: UserId, id: TaskId, now: int)
    requires id in store && store[id].owner == owner
    requires CanEditOrDelete(store[id], now)
    ensures Delete(store, owner, id, now).Ok?
    ensures ShowsUpcoming(store[id], now) ==> Update(store, owner, id, CompleteClick, now) == Err(NotStarted)
    ensures !ShowsUpcoming(store[id], now) ==>
              && Update(store, owner, id, CompleteClick, now).Ok?
              && Resolve(Update(store, owner, id, CompleteClick, now).value, now) == Completed
  {
  }

  /** The server refuses every change to a completed card, which the dashboard shows disabled. */
  lemma CompletedCardsLocked(store: Store, owner: UserId, id: TaskId, req: UpdateRequest, now: int)
    requires id in store && store[id].owner == owner && store[id].isCompleted
    requires UpdateProblems(req) == []
    ensures Update(store, owner, id, req, now).Err?
  {
  }

  /** The map after a successful update or completion toggle: the entry with the id becomes
      the server's answer. */
  function ReplaceById(tasks: seq<Task>, id: TaskId, u: Task): (r: seq<Task>)
    ensures |r| == |tasks|
    ensures forall i :: 0 <= i < |tasks| && tasks[i].id == id ==> r[i] == u
    ensures forall i :: 0 <= i < |tasks| && tasks[i].id != id ==> r[i] == tasks[i]
  {
    seq(|tasks|, i requires 0 <= i < |tasks| => if tasks[i].id == id then u else tasks[i])
  }

  /** The map after a successful delete: the entry with the id gets `isDeleted`, nothing else. */
  function MarkDeletedLocally(tasks: seq<Task>, id: TaskId): (r: seq<Task>)
    ensures |r| == |tasks|
    ensures forall i :: 0 <= i < |tasks| && tasks[i].id == id ==>
              r[i].isDeleted && r[i].(isDeleted := tasks[i].isDeleted) == tasks[i]
    ensures forall i :: 0 <= i < |tasks| && tasks[i].id != id ==> r[i] == tasks[i]
  {
    seq(|tasks|, i requires 0 <= i < |tasks| => if tasks[i].id == id then tasks[i].(isDeleted := true) else tasks[i])
  }

  /** Every stored task sits under its own id. */
  predicate WellKeyed(store: Store)
  {
    forall k :: k in store ==> store[k].id == k
  }

  /** The local list shows every task as stored. */
  predicate Mirrors(tasks: seq<Task>, store: Store)
  {
    forall i :: 0 <= i < |tasks| ==> tasks[i].id in store && store[tasks[i].id] == tasks[i]
  }

  /** Two records that differ at most in `updatedAt`. */
  predicate SameButStamp(a: Task, b: Task)
  {
    a.(updatedAt := 0) == b.(updatedAt := 0)
  }

  /** The local list shows every task as stored, except possibly for `updatedAt`. */
  predicate MirrorsUpToStamp(tasks: seq<Task>, store: Store)
  {
    forall i :: 0 <= i < |tasks| ==> tasks[i].id in store && SameButStamp(store[tasks[i].id], tasks[i])
  }

  /** A successful update keeps the task under its id. */
  lemma UpdateKeepsId(store: Store, owner: UserId, id: TaskId, req: UpdateRequest, now: int)
    requires WellKeyed(store)
    requires Update(store, owner, id, req, now).Ok?
    ensures Update(store, owner, id, req, now).value.id == id
  {
  }

  /** Replacing the entry by the server's answer keeps the list in step with the store. */
  lemma ReplaceMirrorsUpdate(tasks: seq<Task>, store: Store, owner: UserId, id: TaskId, req: UpdateRequest, now: int)
    requires WellKeyed(store) && Mirrors(tasks, store)
    requires Update(store, owner, id, req, now).Ok?
    ensures var r := Update(store, owner, id, req, now);
            Mirrors(ReplaceById(tasks, id, r.value), Commit(store, r))
  {
    UpdateKeepsId(store, owner, id, req, now);
  }

  /** Marking the entry deleted keeps the list in step with the store except for the delete's
      `updatedAt`, which the list does not learn; the entry leaves the active view. */
  lemma MarkDeletedMirrorsDelete(tasks: seq<Task>, store: Store, owner: UserId, id: TaskId, now: int)
    requires WellKeyed(store) && Mirrors(tasks, store)
    requires Delete(store, owner, id, now).Ok?
    ensures MirrorsUpToStamp(MarkDeletedLocally(tasks, id), Commit(store, Delete(store, owner, id, now)))
    ensures forall t :: t in MarkDeletedLocally(tasks, id) && t.id == id ==> Resolve(t, now) == Deleted
  {
  }
}

=== FILE: displaydate.dfy ===
/** Dates as the user types them, `dd-MM-yyyy`, and as the form sends them, `yyyy-MM-dd` (the
    full-date form of section 5.6 of RFC 3339): History's `parseDisplayDate`
    (frontend/src/pages/History.js) and the form's `toIsoDatePart`
    (frontend/src/components/TaskModal.js). */
module DisplayDate {
  import opened Wrappers
  import opened Calendar
  import opened Clock

  /** `/^(\d{2})-(\d{2})-(\d{4})$/`: two digits, '-', two digits, '-', four digits, nothing else. */
  predicate IsDayMonthYear(s: string)
  {
    |s| == 10 && s[2] == '-' && s[5] == '-'
    && AllDigits(s[0..2]) && AllDigits(s[3..5]) && AllDigits(s[6..10])
  }

  /** The three capture groups of a `dd-MM-yyyy` match. */
  datatype Parts = Parts(day: string, month: string, year: string)

  predicate WellFormed(p: Parts)
  {
    |p.day| == 2 && |p.month| == 2 && |p.year| == 4
    && AllDigits(p.day) && AllDigits(p.month) && AllDigits(p.year)
  }

  /** `s.match(...)`: the groups of a matching text, which put back together give the text. */
  function Groups(s: string): (r: Option<Parts>)
    ensures r.Some? <==> IsDayMonthYear(s)
    ensures r.Some? ==> WellFormed(r.value) && s == r.value.day + "-" + r.value.month + "-" + r.value.year
  {
    if IsDayMonthYear(s) then Some(Parts(s[0..2], s[3..5], s[6..10])) else None
  }

  /** The groups name a day that exists. */
  predicate NamesCalendarDate(p: Parts)
    requires WellFormed(p)
  {
    IsCalendarDate(DigitsValue(p.year), DigitsValue(p.month), DigitsValue(p.day))
  }

  /** The epoch day number of the named date. */
  function DayNumber(p: Parts): int
    requires WellFormed(p) && NamesCalendarDate(p)
  {
    DaysFromCivil(DigitsValue(p.year), DigitsValue(p.month), DigitsValue(p.day))
  }

  /** `parseDisplayDate`: midnight of the typed day, or `null` for an empty text, a text that
      is not `dd-MM-yyyy`, or digits naming no date. */
  function ParseDisplayDate(val: string): (r: Option<int>)
    ensures val == "" ==> r.None?
    ensures !IsDayMonthYear(val) ==> r.None?
    ensures r.Some? <==> IsDayMonthYear(val) && NamesCalendarDate(Groups(val).value)
    ensures r.Some? ==> r.value % DayMs == 0 && DayOf(r.value) == DayNumber(Groups(val).value)
  {
    if val == "" then None
    else match Groups(val)
      case None => None
      case Some(p) =>
        if NamesCalendarDate(p) then
          AtDecomposes(DayNumber(p), 0);
          Some(DayNumber(p) * DayMs)
        else None
  }

  /** `yyyy-MM-dd` naming a day that exists. */
  predicate IsIsoDate(s: string)
  {
    && |s| == 10 && s[4] == '-' && s[7] == '-'
    && AllDigits(s[0..4]) && AllDigits(s[5..7]) && AllDigits(s[8..10])
    && IsCalendarDate(DigitsValue(s[0..4]), DigitsValue(s[5..7]), DigitsValue(s[8..10]))
  }

  /** The epoch day number of a `yyyy-MM-dd` date. */
  function IsoDayNumber(s: string): int
    requires IsIsoDate(s)
  {
    DaysFromCivil(DigitsValue(s[0..4]), DigitsValue(s[5..7]), DigitsValue(s[8..10]))
  }

  /** `toIsoDatePart`: the same three digit groups as `yyyy-MM-dd` when they name a day that
      exists, otherwise the empty text. */
  function ToIsoDatePart(s: string): (r: string)
    ensures r == "" || IsIsoDate(r)
  {
    match Groups(s)
    case None => ""
    case Some(p) =>
      if NamesCalendarDate(p) then
        var r := p.year + "-" + p.month + "-" + p.day;
        assert r[0..4] == p.year && r[5..7] == p.month && r[8..10] == p.day;
        r
      else ""
  }

  /** `dd-MM-yyyy` of a `yyyy-MM-dd` text. */
  function ToDisplay(iso: string): string
    requires |iso| == 10
  {
    iso[8..10] + "-" + iso[5..7] + "-" + iso[0..4]
  }

  /** The converter refuses every text off the pattern, and on the pattern accepts exactly
      the digits that name a day that exists. */
  lemma ToIsoDatePartAccepts(s: string)
    ensures !IsDayMonthYear(s) ==> ToIsoDatePart(s) == ""
    ensures IsDayMonthYear(s) ==> (ToIsoDatePart(s) != "" <==> NamesCalendarDate(Groups(s).value))
  {
  }

  /** Swapping the groups back recovers the typed text, and both texts name the same day. */
  lemma ToIsoDatePartRoundTrip(s: string)
    requires ToIsoDatePart(s) != ""
    ensures ToDisplay(ToIsoDatePart(s)) == s
    ensures IsoDayNumber(ToIsoDatePart(s)) == DayNumber(Groups(s).value)
  {
    var p := Groups(s).value;
    var r := ToIsoDatePart(s);
    assert r == p.year + "-" + p.month + "-" + p.day;
    assert r[0..4] == p.year && r[5..7] == p.month && r[8..10] == p.day;
  }

  /** History's parser and the form's converter accept the same texts, and name the same day. */
  lemma ParsersAgree(s: string)
    ensures ParseDisplayDate(s).Some? <==> ToIsoDatePart(s) != ""
    ensures ParseDisplayDate(s).Some? ==> ParseDisplayDate(s).value == IsoDayNumber(ToIsoDatePart(s)) * DayMs
  {
    if ToIsoDatePart(s) != "" {
      ToIsoDatePartRoundTrip(s);
    }
  }

  /** The values of the thirty-day months' two-digit numbers. */
  lemma ShortMonthDigits()
    ensures DigitsValue("04") == 4 && DigitsValue("06") == 6 && DigitsValue("09") == 9 && DigitsValue("11") == 11
  {
    assert "04"[..1] == "0" && "06"[..1] == "0" && "09"[..1] == "0" && "11"[..1] == "1";
  }

  /** A `dd-MM-yyyy` text is accepted exactly when its digits name a day that exists. */
  lemma AcceptedIffCalendarDate(s: string)
    requires IsDayMonthYear(s)
    ensures (ToIsoDatePart(s) != "")
              == IsCalendarDate(DigitsValue(s[6..10]), DigitsValue(s[3..5]), DigitsValue(s[0..2]))
  {
    ToIsoDatePartAccepts(s);
  }

  /** In every four-digit year, the twenty-ninth of February is accepted exactly when the year
      is a leap year. */
  lemma LeapDayAcceptedIffLeapYear(y: string)
    requires |y| == 4 && AllDigits(y)
    ensures ToIsoDatePart("29-02-" + y) != "" <==> IsLeapYear(DigitsValue(y))
  {
    var s := "29-02-" + y;
    assert s[0..2] == "29" && s[3..5] == "02" && s[6..10] == y;
    assert DigitsValue("29") == 29 && DigitsValue("02") == 2 by {
      assert "29"[..1] == "2" && "02"[..1] == "0";
    }
    AcceptedIffCalendarDate(s);
  }

  /** April, June, September and November, as the picker writes them. */
  predicate IsShortMonth(mm: string)
  {
    mm == "04" || mm == "06" || mm == "09" || mm == "11"
  }

  lemma ShortMonthHasThirtyDays(mm: string, year: int)
    requires IsShortMonth(mm)
    ensures AllDigits(mm) && 1 <= DigitsValue(mm) <= 12 && DaysInMonth(year, DigitsValue(mm)) == 30
  {
    ShortMonthDigits();
  }

  /** The thirtieth of a month that exists in every year is accepted, and the thirty-first is
      refused. */
  lemma ThirtyDayMonthEnds(s: string, t: string)
    requires IsDayMonthYear(s) && IsDayMonthYear(t)
    requires s[0..2] == "31" && t[0..2] == "30" && s[3..10] == t[3..10]
    requires 1 <= DigitsValue(s[3..5]) <= 12 && DaysInMonth(DigitsValue(s[6..10]), DigitsValue(s[3..5])) == 30
    ensures ToIsoDatePart(s) == "" && ToIsoDatePart(t) != ""
  {
    assert DigitsValue("31") == 31 && DigitsValue("30") == 30 by {
      assert "31"[..1] == "3" && "30"[..1] == "3";
    }
    assert s[3..5] == t[3..5] && s[6..10] == t[6..10] by {
      assert s[3..5] == s[3..10][0..2] && t[3..5] == t[3..10][0..2];
      assert s[6..10] == s[3..10][3..7] && t[6..10] == t[3..10][3..7];
    }
    AcceptedIffCalendarDate(s);
    AcceptedIffCalendarDate(t);
  }

  /** In every four-digit year, the thirty-first of April, June, September and November is
      refused, and the thirtieth of those months is accepted. */
  lemma ShortMonthsEndOnThirtieth(mm: string, y: string)
    requires IsShortMonth(mm)
    requires |y| == 4 && AllDigits(y)
    ensures ToIsoDatePart("31-" + mm + "-" + y) == ""
    ensures ToIsoDatePart("30-" + mm + "-" + y) != ""
  {
    ShortMonthHasThirtyDays(mm, DigitsValue(y));
    var s := "31-" + mm + "-" + y;
    var t := "30-" + mm + "-" + y;
    assert s[0..2] == "31" && s[3..5] == mm && s[6..10] == y && s[2] == '-' && s[5] == '-';
    assert t[0..2] == "30" && t[3..10] == s[3..10];
    ThirtyDayMonthEnds(s, t);
  }
}

=== FILE: history.dfy ===
/** The history page (frontend/src/pages/History.js): the tasks that are no longer active when
    the list is fetched, narrowed by an optional day range on the end time and by a status
    choice, each shown with a Deleted, Completed or Failed badge. */
module History {
  import opened Wrappers
  import opened Tasks
  import opened Status
  import opened Seqs
  import opened Clock
  import opened DisplayDate

  /** The list kept at fetch time `fetchedAt`: every task that is not active then. */
  function NonActive(tasks: seq<Task>, fetchedAt: int): seq<Task>
  {
    Filter(tasks, (t: Task) => !IsActiveAt(t, fetchedAt))
  }

  /** The history list is the complement of the analytics' active count: exactly the tasks
      that are completed, deleted or past their end, in the order fetched. */
  lemma NonActiveExact(tasks: seq<Task>, fetchedAt: int)
    ensures forall t :: t in NonActive(tasks, fetchedAt) <==>
              t in tasks && (t.isCompleted || t.isDeleted || t.endTime < fetchedAt)
    ensures IsSubsequence(NonActive(tasks, fetchedAt), tasks)
    ensures |NonActive(tasks, fetchedAt)| + Count(tasks, (t: Task) => IsActiveAt(t, fetchedAt)) == |tasks|
  {
    var a := (t: Task) => IsActiveAt(t, fetchedAt);
    var n := (t: Task) => !IsActiveAt(t, fetchedAt);
    var all := (t: Task) => true;
    FilterIsSubsequence(tasks, n);
    CountDisjointUnion(tasks, a, n, all);
    FilterKeepsAll(tasks, all);
  }

  /** The status select: 'completed', 'failed' and 'deleted' test the flags and the clock at
      render time; any other value, 'all' among them, keeps the task. */
  predicate StatusMatches(t: Task, status: string, now: int)
  {
    if status == "completed" then t.isCompleted
    else if status == "failed" then !t.isCompleted && t.endTime < now
    else if status == "deleted" then t.isDeleted
    else true
  }

  /** The row filter: not before midnight of the From day, not after 23:59:59.999 of the To
      day, and the status choice. An empty or unparseable bound is no bound. */
  predicate Shown(t: Task, from: string, to: string, status: string, now: int)
  {
    var d := t.endTime;
    var sDate := ParseDisplayDate(from);
    var eDate := ParseDisplayDate(to);
    if sDate.Some? && d < sDate.value then false
    else if eDate.Some? && d > eDate.value + DayMs - 1 then false
    else StatusMatches(t, status, now)
  }

  /** The rows displayed. */
  function HistoryView(kept: seq<Task>, from: string, to: string, status: string, now: int): seq<Task>
  {
    Filter(kept, (t: Task) => Shown(t, from, to, status, now))
  }

  /** A row is shown iff its end falls on a day from the From day through the To day, both
      whole days included, and it matches the status choice. */
  lemma ShownByDays(t: Task, from: string, to: string, status: string, now: int)
    ensures Shown(t, from, to, status, now) <==>
              && (ParseDisplayDate(from).Some? ==> DayOf(ParseDisplayDate(from).value) <= DayOf(t.endTime))
              && (ParseDisplayDate(to).Some? ==> DayOf(t.endTime) <= DayOf(ParseDisplayDate(to).value))
              && StatusMatches(t, status, now)
  {
    var sDate := ParseDisplayDate(from);
    var eDate := ParseDisplayDate(to);
    if sDate.Some? {
      DayBoundary(sDate.value, t.endTime);
    }
    if eDate.Some? {
      DayBoundary(eDate.value, t.endTime);
      DayBoundary(t.endTime, eDate.value + DayMs);
      assert DayOf(eDate.value + DayMs) == DayOf(eDate.value) + 1;
    }
  }

  /** For a midnight `m`, an instant is at or after `m` iff it falls on `m`'s day or later. */
  lemma DayBoundary(m: int, d: int)
    ensures m % DayMs == 0 ==> (d >= m <==> DayOf(d) >= DayOf(m))
    ensures DayOf(m + DayMs) == DayOf(m) + 1
  {
    assert m == DayOf(m) * DayMs + m % DayMs;
    assert d == DayOf(d) * DayMs + d % DayMs;
    assert m + DayMs == (DayOf(m) + 1) * DayMs + m % DayMs;
  }

  /** The rows are, in order, the kept tasks the filter admits, and with 'all' and no dates
      every kept task. */
  lemma HistoryViewSelects(kept: seq<Task>, from: string, to: string, status: string, now: int)
    ensures forall t :: t in HistoryView(kept, from, to, status, now) <==> t in kept && Shown(t, from, to, status, now)
    ensures IsSubsequence(HistoryView(kept, from, to, status, now), kept)
    ensures HistoryView(kept, "", "", "all", now) == kept
  {
    FilterIsSubsequence(kept, (t: Task) => Shown(t, from, to, status, now));
    FilterKeepsAll(kept, (t: Task) => Shown(t, "", "", "all", now));
  }

  /** The badge: Deleted before Completed before Failed. */
  function Badge(t: Task): (b: TaskStatus)
    ensures b != Active
  {
    if t.isDeleted then Deleted else if t.isCompleted then Completed else Failed
  }

  /** On every kept row, and at any later render, the badge is the dashboard's status. */
  lemma BadgeAgreesWithStatus(t: Task, fetchedAt: int, now: int)
    requires !IsActiveAt(t, fetchedAt)
    requires fetchedAt <= now
    ensures Badge(t) == Resolve(t, now)
  {
  }

  /** The status choice tests flags, not the badge: 'failed' and 'completed' both show
      deleted tasks, whose badge says Deleted. */
  lemma ChoiceAndBadgeDiffer(t: Task, now: int)
    requires t.isDeleted && !t.isCompleted && t.endTime < now
    ensures StatusMatches(t, "failed", now) && Badge(t) == Deleted
    ensures StatusMatches(t.(isCompleted := true), "completed", now) && Badge(t.(isCompleted := true)) == Deleted
  {
  }
}

=== FILE: lifecycle.dfy ===
/** The lifecycle guard of an existing task (backend/routes/tasks.js `PUT /:id` and
    `DELETE /:id`): ownership, the completed lock, the not-started rule, the completion-only
    shortcut, expiry and the time windows, then a field-wise update or a soft delete. */
module Lifecycle {
  import opened Wrappers
  import opened Tasks
  import opened Clock
  import opened Text
  import opened Status

  /** The `isCompleted` member of an update body: absent, a JSON boolean, or any other value
      by its text (a JSON number by its decimal digits), which the boolean validator admits
      only as "true", "false", "1" or "0". */
  datatype CompletionValue = Unset | Flag(b: bool) | Literal(s: string)

  const BooleanTexts: set<string> := {"true", "false", "1", "0"}

  /** An update body; `fieldsValid` is the verdict of the ISO 8601 checks on the times and of
      the priority enum check. */
  datatype UpdateRequest = UpdateRequest(
    title: Option<string>,
    description: Option<string>,
    startTime: Option<int>,
    endTime: Option<int>,
    isCompleted: CompletionValue,
    priority: Option<Priority>,
    fieldsValid: bool)

  /** The validators' `errors` array for an update body. */
  function UpdateProblems(req: UpdateRequest): (ps: seq<Problem>)
    ensures ps == [] <==>
              && (req.title.Some? ==> TitleValid(req.title.value))
              && req.fieldsValid
              && (req.isCompleted.Literal? ==> req.isCompleted.s in BooleanTexts)
  {
    (if req.title.Some? && !TitleValid(req.title.value) then [TitleLength] else [])
    + (if req.fieldsValid then [] else [FieldSyntax])
    + (if req.isCompleted.Literal? && req.isCompleted.s !in BooleanTexts then [NotBoolean] else [])
  }

  /** `isCompleted === true || isCompleted === 'true'`. */
  predicate AsksCompletion(c: CompletionValue)
  {
    c == Flag(true) || c == Literal("true")
  }

  /** The boolean the store casts a validated value to. */
  function StoredFlag(c: CompletionValue): bool
    requires !c.Unset?
  {
    match c
    case Flag(b) => b
    case Literal(s) => s == "true" || s == "1"
  }

  /** A body asking for completion and carrying no other field. */
  predicate OnlyCompletion(req: UpdateRequest)
  {
    AsksCompletion(req.isCompleted)
    && req.title.None? && req.description.None? && req.startTime.None?
    && req.endTime.None? && req.priority.None?
  }

  /** The start-time window of an update: a week either side of now, recurring or not. */
  predicate UpdateStartInWindow(start: int, now: int)
  {
    StartInWindow(start, now, false)
  }

  /** The `$set` of a successful general update: each field sent, and `updatedAt`. */
  function Apply(t: Task, req: UpdateRequest, now: int): Task
  {
    t.(
      title := if req.title.Some? then Trim(req.title.value) else t.title,
      description := if req.description.Some? then Some(Trim(req.description.value)) else t.description,
      startTime := if req.startTime.Some? then req.startTime.value else t.startTime,
      endTime := if req.endTime.Some? then req.endTime.value else t.endTime,
      isCompleted := if req.isCompleted.Unset? then t.isCompleted else StoredFlag(req.isCompleted),
      priority := if req.priority.Some? then req.priority.value else t.priority,
      updatedAt := now)
  }

  /** The checks applied to the caller's own task, in source order. */
  function Guard(t: Task, req: UpdateRequest, now: int): Result<Task, Rejection>
  {
    if t.isCompleted then
      Err(if req.isCompleted == Flag(false) then CannotUnmarkCompleted else CannotUpdateCompleted)
    else if AsksCompletion(req.isCompleted) && t.startTime > now then Err(NotStarted)
    else if OnlyCompletion(req) then Ok(t.(isCompleted := true, updatedAt := now))
    else if now > t.endTime && req.isCompleted == Flag(false) then Err(CannotUncompleteExpired)
    else if req.startTime.Some? && req.endTime.Some? && req.endTime.value <= req.startTime.value then
      Err(EndNotAfterStart)
    else if req.startTime.Some? && !UpdateStartInWindow(req.startTime.value, now) then Err(StartOutsideWindow)
    else if req.endTime.Some? && req.endTime.value < now then Err(EndInPast)
    else Ok(Apply(t, req, now))
  }

  /** `PUT /:id`: validation, the ownership lookup, then the guard; the result is the task as
      written back. */
  function Update(store: Store, owner: UserId, id: TaskId, req: UpdateRequest, now: int): Result<Task, Rejection>
  {
    var problems := UpdateProblems(req);
    if problems != [] then Err(Invalid(problems))
    else match Find(store, owner, id)
      case None => Err(NotFound)
      case Some(t) => Guard(t, req, now)
  }

  /** `DELETE /:id`: the ownership lookup, the expiry check, then the soft delete. */
  function Delete(store: Store, owner: UserId, id: TaskId, now: int): Result<Task, Rejection>
  {
    match Find(store, owner, id)
    case None => Err(NotFound)
    case Some(t) =>
      if now > t.endTime then Err(CannotDeleteExpired)
      else Ok(t.(isDeleted := true, updatedAt := now))
  }

  /** The store after a request: the written task replaces its entry, and a refused request
      leaves the store as it was. */
  function Commit(store: Store, r: Result<Task, Rejection>): (s: Store)
    ensures r.Err? ==> s == store
    ensures r.Ok? ==> r.value.id in s && s[r.value.id] == r.value
    ensures r.Ok? ==> forall k :: k in store && k != r.value.id ==> k in s && s[k] == store[k]
  {
    match r
    case Ok(t) => Save(store, t)
    case Err(_) => store
  }

  /** Validation first, then ownership: a body that passes validation against a task the caller
      does not own, or that does not exist, gets the 404 before any lifecycle check. */
  lemma OwnershipFirst(store: Store, owner: UserId, id: TaskId, req: UpdateRequest, now: int)
    ensures UpdateProblems(req) != [] ==> Update(store, owner, id, req, now) == Err(Invalid(UpdateProblems(req)))
    ensures UpdateProblems(req) == [] && !(id in store && store[id].owner == owner) ==>
              Update(store, owner, id, req, now) == Err(NotFound)
    ensures !(id in store && store[id].owner == owner) ==> Delete(store, owner, id, now) == Err(NotFound)
  {
  }

  /** A completed task accepts no update whatever the body holds; sending `isCompleted: false`
      gets the "unmark" message and anything else the "cannot update" one. */
  lemma CompletedLock(t: Task, req: UpdateRequest, now: int)
    requires t.isCompleted
    ensures Guard(t, req, now).Err?
    ensures Guard(t, req, now).error == CannotUnmarkCompleted <==> req.isCompleted == Flag(false)
    ensures Guard(t, req, now).error == CannotUpdateCompleted <==> req.isCompleted != Flag(false)
  {
  }

  /** Asking for completion (true or "true") of an open task that has not started is refused. */
  lemma NotStartedRule(t: Task, req: UpdateRequest, now: int)
    requires !t.isCompleted && AsksCompletion(req.isCompleted) && t.startTime > now
    ensures Guard(t, req, now) == Err(NotStarted)
  {
  }

  /** A body that only asks for completion, on an open task that has started, sets
      `isCompleted` and `updatedAt` and nothing else, with no time check: it succeeds even on an
      expired or soft-deleted task. */
  lemma CompletionShortcut(t: Task, req: UpdateRequest, now: int)
    requires !t.isCompleted && t.startTime <= now && OnlyCompletion(req)
    ensures Guard(t, req, now) == Ok(t.(isCompleted := true, updatedAt := now))
  {
  }

  /** The general update refuses in this order: un-completing an expired task, end not after
      start (both sent), start outside now plus or minus seven days, end before now. */
  lemma GeneralUpdateOrder(t: Task, req: UpdateRequest, now: int)
    requires !t.isCompleted && !(AsksCompletion(req.isCompleted) && t.startTime > now) && !OnlyCompletion(req)
    ensures now > t.endTime && req.isCompleted == Flag(false) ==> Guard(t, req, now) == Err(CannotUncompleteExpired)
    ensures !(now > t.endTime && req.isCompleted == Flag(false))
            && req.startTime.Some? && req.endTime.Some? && req.endTime.value <= req.startTime.value
            ==> Guard(t, req, now) == Err(EndNotAfterStart)
    ensures !(now > t.endTime && req.isCompleted == Flag(false))
            && !(req.startTime.Some? && req.endTime.Some? && req.endTime.value <= req.startTime.value)
            && req.startTime.Some? && !(now - 7 * DayMs <= req.startTime.value <= now + 7 * DayMs)
            ==> Guard(t, req, now) == Err(StartOutsideWindow)
    ensures !(now > t.endTime && req.isCompleted == Flag(false))
            && !(req.startTime.Some? && req.endTime.Some? && req.endTime.value <= req.startTime.value)
            && (req.startTime.Some? ==> now - 7 * DayMs <= req.startTime.value <= now + 7 * DayMs)
            && req.endTime.Some? && req.endTime.value < now
            ==> Guard(t, req, now) == Err(EndInPast)
    ensures Guard(t, req, now).Ok? <==>
              && !(now > t.endTime && req.isCompleted == Flag(false))
              && !(req.startTime.Some? && req.endTime.Some? && req.endTime.value <= req.startTime.value)
              && (req.startTime.Some? ==> now - 7 * DayMs <= req.startTime.value <= now + 7 * DayMs)
              && (req.endTime.Some? ==> req.endTime.value >= now)
  {
  }

  /** What a successful update writes: exactly the fields the body carries (title and
      description trimmed, the completion flag as cast) plus `updatedAt`; id, owner, creation
      time and the deleted flag never change, and a completed task is never un-completed. */
  lemma UpdateChangesOnlySentFields(t: Task, req: UpdateRequest, now: int)
    requires Guard(t, req, now).Ok?
    ensures var u := Guard(t, req, now).value;
            && u.id == t.id && u.owner == t.owner && u.createdAt == t.createdAt
            && u.isDeleted == t.isDeleted
            && u.updatedAt == now
            && u.title == (if req.title.Some? then Trim(req.title.value) else t.title)
            && u.description == (if req.description.Some? then Some(Trim(req.description.value)) else t.description)
            && u.startTime == (if req.startTime.Some? then req.startTime.value else t.startTime)
            && u.endTime == (if req.endTime.Some? then req.endTime.value else t.endTime)
            && u.priority == (if req.priority.Some? then req.priority.value else t.priority)
            && (req.isCompleted.Unset? ==> u.isCompleted == t.isCompleted)
            && (!req.isCompleted.Unset? ==> u.isCompleted == StoredFlag(req.isCompleted))
            && !t.isCompleted
  {
  }

  /** A successful general update leaves every time it was sent within its window, and a
      task updated with both times still ends after it starts. */
  lemma UpdateKeepsWindows(t: Task, req: UpdateRequest, now: int)
    requires Guard(t, req, now).Ok? && !OnlyCompletion(req)
    ensures var u := Guard(t, req, now).value;
            && (req.startTime.Some? ==> now - 7 * DayMs <= u.startTime <= now + 7 * DayMs)
            && (req.endTime.Some? ==> u.endTime >= now)
            && (req.startTime.Some? && req.endTime.Some? ==> u.startTime < u.endTime)
  {
  }

  /** Only a body with both times is checked for order: moving just the end before the
      current start is accepted and leaves a task that ends before it starts. */
  lemma EndOnlyUpdateCanInvert(t: Task, now: int)
    requires !t.isCompleted && t.startTime == now + 2 * DayMs && t.endTime == now + 3 * DayMs
    ensures var req := UpdateRequest(None, None, None, Some(now + DayMs), Unset, None, true);
            && Guard(t, req, now).Ok?
            && Guard(t, req, now).value.endTime < Guard(t, req, now).value.startTime
  {
  }

  /** `isCompleted: 1` (or "1") passes the boolean validator and is stored as true, but is
      neither `true` nor `'true'`: it skips the not-started rule and completes a task that has
      not started yet. */
  lemma NumericTrueSkipsNotStarted(t: Task, now: int)
    requires !t.isCompleted && t.startTime > now && t.endTime >= now
    ensures var req := UpdateRequest(None, None, None, None, Literal("1"), None, true);
            && UpdateProblems(req) == []
            && Guard(t, req, now).Ok?
            && Guard(t, req, now).value.isCompleted
  {
  }

  /** Status view of the guard: a failed task can still be completed through the shortcut,
      and a soft-deleted task can still have its title changed; the deleted flag is never
      consulted. */
  lemma FailedAndDeletedStillWritable(t: Task, title: string, now: int)
    requires !t.isCompleted && t.startTime <= now && TitleValid(title)
    ensures var done := UpdateRequest(None, None, None, None, Flag(true), None, true);
            Resolve(t, now) == Failed ==> Guard(t, done, now).Ok? && Resolve(Guard(t, done, now).value, now) == Completed
    ensures var rename := UpdateRequest(Some(title), None, None, None, Unset, None, true);
            t.isDeleted ==> Guard(t, rename, now).Ok? && Guard(t, rename, now).value.isDeleted
  {
  }

  /** Delete succeeds exactly on the caller's own task that has not yet ended, whatever its
      completed and deleted flags, and then changes only `isDeleted` (to true) and `updatedAt`. */
  lemma DeleteOutcome(store: Store, owner: UserId, id: TaskId, now: int)
    ensures Delete(store, owner, id, now).Ok? <==>
              id in store && store[id].owner == owner && now <= store[id].endTime
    ensures id in store && store[id].owner == owner && now > store[id].endTime ==>
              Delete(store, owner, id, now) == Err(CannotDeleteExpired)
    ensures Delete(store, owner, id, now).Ok? ==>
              && Delete(store, owner, id, now).value == store[id].(isDeleted := true, updatedAt := now)
              && Resolve(Delete(store, owner, id, now).value, now) == Deleted
  {
  }

  /** A caller cannot change a task they do not own: an update or delete aimed at a missing or
      foreign task is refused and the store stays as it was. */
  lemma ForeignRequestsLeaveStore(store: Store, owner: UserId, id: TaskId, req: UpdateRequest, now: int)
    requires !(id in store && store[id].owner == owner)
    ensures Update(store, owner, id, req, now).Err? && Commit(store, Update(store, owner, id, req, now)) == store
    ensures Delete(store, owner, id, now) == Err(NotFound) && Commit(store, Delete(store, owner, id, now)) == store
  {
    OwnershipFirst(store, owner, id, req, now);
  }
}

=== FILE: recurrence.dfy ===
/** The recurrence descriptor of a create request and its expansion into concrete
    occurrences (backend/routes/tasks.js, the `recurrence` validator and `addOccurrence`). */
module Recurrence {
  import opened Wrappers
  import opened Tasks
  import opened Clock
  import opened Seqs

  /** The `recurrence` field of a request body, as far as the validator looks at it.
      `Absent` is a missing field or any falsy value; `NonObject` any other non-object value.
      In an object, `kind` is the `type` member when it is a string, and `dates` the `dates`
      member when it is an array, each element being what `Date.parse` made of it. */
  datatype RecurrenceValue =
    | Absent
    | NonObject
    | Object(kind: Option<string>, dates: Option<seq<Option<int>>>)

  /** What a request that passed validation asks for. */
  datatype Plan = OneOff | Daily | Weekly | Custom(dates: seq<int>)

  /** The recurrence types the validator admits. */
  const Kinds: set<string> := {"none", "daily", "weekly", "custom"}

  predicate IsRecurring(p: Plan)
  {
    !p.OneOff?
  }

  /** Every date parsed, or `None` at the first one that did not. */
  function ParsedDates(ds: seq<Option<int>>): (r: Option<seq<int>>)
    ensures r.Some? <==> forall i :: 0 <= i < |ds| ==> ds[i].Some?
    ensures r.Some? ==> |r.value| == |ds| && forall i :: 0 <= i < |ds| ==> r.value[i] == ds[i].value
  {
    if |ds| == 0 then Some([])
    else if ds[0].None? then None
    else match ParsedDates(ds[1..])
      case None => None
      case Some(rest) => Some([ds[0].value] + rest)
  }

  /** The custom validator of the `recurrence` field. */
  function Validate(v: RecurrenceValue): Result<Plan, Problem>
  {
    match v
    case Absent => Ok(OneOff)
    case NonObject => Err(InvalidRecurrence)
    case Object(kind, dates) =>
      if kind.None? || kind.value !in Kinds then Err(InvalidRecurrenceType)
      else if kind.value == "custom" then
        if dates.None? then Err(DatesNotArray)
        else match ParsedDates(dates.value)
          case None => Err(InvalidRecurrenceDate)
          case Some(ds) => Ok(Custom(ds))
      else if kind.value == "daily" then Ok(Daily)
      else if kind.value == "weekly" then Ok(Weekly)
      else Ok(OneOff)
  }

  /** The request field a client sends for a plan. */
  function Describe(p: Plan): RecurrenceValue
  {
    match p
    case OneOff => Absent
    case Daily => Object(Some("daily"), None)
    case Weekly => Object(Some("weekly"), None)
    case Custom(ds) => Object(Some("custom"), Some(seq(|ds|, i requires 0 <= i < |ds| => Some(ds[i]))))
  }

  /** The validator rejects exactly: a truthy non-object, a type outside the four admitted
      ones, and a custom type without a dates array or with an unparseable date; it reads
      `dates` only for the custom type, and the request recurs exactly for the daily,
      weekly and custom types. */
  lemma ValidateCases(v: RecurrenceValue)
    ensures v.Absent? ==> Validate(v) == Ok(OneOff)
    ensures v.NonObject? ==> Validate(v) == Err(InvalidRecurrence)
    ensures v.Object? && (v.kind.None? || v.kind.value !in Kinds) ==> Validate(v) == Err(InvalidRecurrenceType)
    ensures v.Object? && v.kind == Some("custom") && v.dates.None? ==> Validate(v) == Err(DatesNotArray)
    ensures v.Object? && v.kind == Some("custom") && v.dates.Some? ==>
              (Validate(v) == Err(InvalidRecurrenceDate) <==> exists i :: 0 <= i < |v.dates.value| && v.dates.value[i].None?)
    ensures v.Object? && v.kind.Some? && v.kind.value in {"none", "daily", "weekly"} ==> Validate(v).Ok?
    ensures Validate(v).Ok? ==> (IsRecurring(Validate(v).value) <==> v.Object? && v.kind.value in {"daily", "weekly", "custom"})
  {
  }

  /** What a client describes, the validator reads back unchanged. */
  lemma ValidateDescribe(p: Plan)
    ensures Validate(Describe(p)) == Ok(p)
  {
    match p
    case Custom(ds) =>
      var r := ParsedDates(Describe(p).dates.value);
      assert r.value == ds;
    case _ =>
  }

  /** One concrete occurrence of a recurring task. */
  datatype Occurrence = Occurrence(start: int, end: int)

  /** The occurrence on the calendar day of `date`, at the hour and minute of `baseStart` and
      of `baseEnd`, seconds and milliseconds zero. */
  function Candidate(date: int, baseStart: int, baseEnd: int): Occurrence
  {
    Occurrence(At(DayOf(date), MinuteOfDay(baseStart)), At(DayOf(date), MinuteOfDay(baseEnd)))
  }

  /** The three silent filters of `addOccurrence`: ends after it starts, does not start in
      the past, does not start beyond the thirty-day horizon. */
  predicate Admissible(o: Occurrence, now: int)
  {
    !(o.end <= o.start) && !(o.start < now) && !(o.start > now + HorizonMs)
  }

  /** Start and end lie on the start's calendar day at the base start's and base end's
      hour and minute, with zero seconds. */
  predicate OnBaseTimes(o: Occurrence, baseStart: int, baseEnd: int)
  {
    o.start == At(DayOf(o.start), MinuteOfDay(baseStart))
    && o.end == At(DayOf(o.start), MinuteOfDay(baseEnd))
  }

  /** The dates fall on strictly later calendar days, one after the other. */
  predicate DaysIncrease(dates: seq<int>)
  {
    forall i, j :: 0 <= i < j < |dates| ==> DayOf(dates[i]) < DayOf(dates[j])
  }

  predicate StartsIncrease(os: seq<Occurrence>)
  {
    forall i, j :: 0 <= i < j < |os| ==> os[i].start < os[j].start
  }

  lemma CandidateOnBaseTimes(date: int, baseStart: int, baseEnd: int)
    ensures OnBaseTimes(Candidate(date, baseStart, baseEnd), baseStart, baseEnd)
    ensures DayOf(Candidate(date, baseStart, baseEnd).start) == DayOf(date)
  {
    AtDecomposes(DayOf(date), MinuteOfDay(baseStart));
  }

  /** `addOccurrence` applied to each date in turn: at most one occurrence per date, each kept
      occurrence admissible and at the base times. */
  function Occurrences(dates: seq<int>, baseStart: int, baseEnd: int, now: int): (r: seq<Occurrence>)
    ensures |r| <= |dates|
    ensures forall i :: 0 <= i < |r| ==> Admissible(r[i], now) && OnBaseTimes(r[i], baseStart, baseEnd)
  {
    if |dates| == 0 then []
    else
      var c := Candidate(dates[0], baseStart, baseEnd);
      CandidateOnBaseTimes(dates[0], baseStart, baseEnd);
      (if Admissible(c, now) then [c] else []) + Occurrences(dates[1..], baseStart, baseEnd, now)
  }

  /** Every occurrence is the candidate of one of the dates. */
  lemma {:induction false} OccurrencesFromDates(dates: seq<int>, baseStart: int, baseEnd: int, now: int)
    ensures forall o :: o in Occurrences(dates, baseStart, baseEnd, now) ==>
              exists j :: 0 <= j < |dates| && o == Candidate(dates[j], baseStart, baseEnd)
  {
    if |dates| > 0 {
      OccurrencesFromDates(dates[1..], baseStart, baseEnd, now);
      forall o | o in Occurrences(dates, baseStart, baseEnd, now)
        ensures exists j :: 0 <= j < |dates| && o == Candidate(dates[j], baseStart, baseEnd)
      {
        if o != Candidate(dates[0], baseStart, baseEnd) {
          assert o in Occurrences(dates[1..], baseStart, baseEnd, now);
          var j :| 0 <= j < |dates[1..]| && o == Candidate(dates[1..][j], baseStart, baseEnd);
          assert dates[1..][j] == dates[j + 1];
        }
      }
    }
  }

  /** No admissible candidate is lost. */
  lemma {:induction false} OccurrencesComplete(dates: seq<int>, baseStart: int, baseEnd: int, now: int)
    ensures forall j :: 0 <= j < |dates| && Admissible(Candidate(dates[j], baseStart, baseEnd), now) ==>
              Candidate(dates[j], baseStart, baseEnd) in Occurrences(dates, baseStart, baseEnd, now)
  {
    if |dates| > 0 {
      OccurrencesComplete(dates[1..], baseStart, baseEnd, now);
      forall j | 1 <= j < |dates|
        ensures Candidate(dates[j], baseStart, baseEnd) == Candidate(dates[1..][j - 1], baseStart, baseEnd)
      {
      }
    }
  }

  /** The candidate of each date, in list order. */
  function Candidates(dates: seq<int>, baseStart: int, baseEnd: int): (r: seq<Occurrence>)
    ensures |r| == |dates|
    ensures forall j :: 0 <= j < |dates| ==> r[j] == Candidate(dates[j], baseStart, baseEnd)
  {
    seq(|dates|, j requires 0 <= j < |dates| => Candidate(dates[j], baseStart, baseEnd))
  }

  /** The occurrences come out in the order of their dates: deleting the dropped candidates
      from the candidate list leaves exactly them, a repeated date giving a repeated
      occurrence. */
  lemma {:induction false} OccurrencesKeepListOrder(dates: seq<int>, baseStart: int, baseEnd: int, now: int)
    ensures Occurrences(dates, baseStart, baseEnd, now)
              == Filter(Candidates(dates, baseStart, baseEnd), (c: Occurrence) => Admissible(c, now))
    ensures IsSubsequence(Occurrences(dates, baseStart, baseEnd, now), Candidates(dates, baseStart, baseEnd))
  {
    var r := Occurrences(dates, baseStart, baseEnd, now);
    var cs := Candidates(dates, baseStart, baseEnd);
    if |dates| > 0 {
      OccurrencesKeepListOrder(dates[1..], baseStart, baseEnd, now);
      var rest := Occurrences(dates[1..], baseStart, baseEnd, now);
      assert cs[1..] == Candidates(dates[1..], baseStart, baseEnd);
      if Admissible(cs[0], now) {
        assert r == [cs[0]] + rest;
        assert r[1..] == rest;
      } else {
        assert r == rest;
        SubsequenceSkip(r, cs);
      }
    }
  }

  /** Dropping the head of the longer sequence keeps a subsequence relation it already had
      with the tail. */
  lemma {:induction false} SubsequenceSkip<T>(a: seq<T>, b: seq<T>)
    requires |b| > 0
    requires IsSubsequence(a, b[1..])
    ensures IsSubsequence(a, b)
    decreases |a| + |b|
  {
    if |a| > 0 && a[0] == b[0] {
      SubsequenceTail(a, b[1..]);
      assert IsSubsequence(a[1..], b[1..]);
    }
  }

  /** A subsequence stays one after its first element is removed. */
  lemma {:induction false} SubsequenceTail<T>(a: seq<T>, b: seq<T>)
    requires |a| > 0
    requires IsSubsequence(a, b)
    ensures IsSubsequence(a[1..], b)
    decreases |a| + |b|
  {
    if a[0] == b[0] {
      assert IsSubsequence(a[1..], b[1..]);
      SubsequenceSkip(a[1..], b);
    } else {
      SubsequenceTail(a, b[1..]);
      SubsequenceSkip(a[1..], b);
    }
  }

  /** Dates on ascending days give occurrences with ascending starts. */
  lemma {:induction false} OccurrencesAscend(dates: seq<int>, baseStart: int, baseEnd: int, now: int)
    requires DaysIncrease(dates)
    ensures StartsIncrease(Occurrences(dates, baseStart, baseEnd, now))
  {
    if |dates| > 0 {
      var c := Candidate(dates[0], baseStart, baseEnd);
      var rest := Occurrences(dates[1..], baseStart, baseEnd, now);
      assert DaysIncrease(dates[1..]);
      OccurrencesAscend(dates[1..], baseStart, baseEnd, now);
      if Admissible(c, now) {
        OccurrencesFromDates(dates[1..], baseStart, baseEnd, now);
        forall i | 0 <= i < |rest|
          ensures c.start < rest[i].start
        {
          assert rest[i] in rest;
          var j :| 0 <= j < |dates[1..]| && rest[i] == Candidate(dates[1..][j], baseStart, baseEnd);
          assert DayOf(dates[0]) < DayOf(dates[j + 1]);
          AtLaterDay(DayOf(dates[0]), DayOf(dates[j + 1]), MinuteOfDay(baseStart));
        }
        var r := [c] + rest;
        forall i, j | 0 <= i < j < |r|
          ensures r[i].start < r[j].start
        {
          if i > 0 {
            assert r[i] == rest[i - 1] && r[j] == rest[j - 1];
          }
        }
      }
    }
  }

  /** A date whose day begins after the horizon yields no occurrence. */
  lemma LateDateDropped(date: int, baseStart: int, baseEnd: int, now: int)
    requires Midnight(date) > now + HorizonMs
    ensures Occurrences([date], baseStart, baseEnd, now) == []
  {
    var c := Candidate(date, baseStart, baseEnd);
    assert c.start >= Midnight(date);
    assert !Admissible(c, now);
    assert [date][1..] == [];
  }

  /** The cursor values of the stepping `while (cursor <= cutoff)` loop: the start plus a
      whole number of steps, none past the cutoff, and the next one would be. */
  function Cursors(cursor: int, step: int, cutoff: int): (r: seq<int>)
    requires step > 0
    ensures forall k :: 0 <= k < |r| ==> r[k] == cursor + k * step && r[k] <= cutoff
    ensures cursor + |r| * step > cutoff
    decreases cutoff - cursor + step
  {
    if cursor > cutoff then []
    else [cursor] + Cursors(cursor + step, step, cutoff)
  }

  /** The occurrences a validated plan expands to. */
  function Expand(plan: Plan, baseStart: int, baseEnd: int, now: int): (r: seq<Occurrence>)
    ensures forall i :: 0 <= i < |r| ==> Admissible(r[i], now) && OnBaseTimes(r[i], baseStart, baseEnd)
  {
    var cutoff := now + HorizonMs;
    match plan
    case OneOff => []
    case Daily => Occurrences(Cursors(baseStart, DayMs, cutoff), baseStart, baseEnd, now)
    case Weekly => Occurrences(Cursors(baseStart, 7 * DayMs, cutoff), baseStart, baseEnd, now)
    case Custom(ds) => Occurrences(ds, baseStart, baseEnd, now)
  }

  /** Stepping by a day or more visits strictly later calendar days. */
  lemma CursorDaysIncrease(cursor: int, step: int, cutoff: int)
    requires step >= DayMs
    ensures DaysIncrease(Cursors(cursor, step, cutoff))
  {
    var cs := Cursors(cursor, step, cutoff);
    forall i, j | 0 <= i < j < |cs|
      ensures DayOf(cs[i]) < DayOf(cs[j])
    {
      StepGap(cursor, step, i, j);
      DayOfAdvances(cs[i], cs[j]);
    }
  }

  /** Later cursor values are at least one step further on. */
  lemma StepGap(cursor: int, step: int, i: int, j: int)
    requires i < j && step >= 0
    ensures cursor + i * step + step <= cursor + j * step
  {
    assert j * step - i * step == (j - i) * step;
    assert (j - i) * step - step == (j - i - 1) * step;
  }

  /** Daily and weekly occurrences come out with strictly increasing starts. */
  lemma SteppedStartsIncrease(plan: Plan, baseStart: int, baseEnd: int, now: int)
    requires plan.Daily? || plan.Weekly?
    ensures StartsIncrease(Expand(plan, baseStart, baseEnd, now))
  {
    var step := if plan.Daily? then DayMs else 7 * DayMs;
    CursorDaysIncrease(baseStart, step, now + HorizonMs);
    OccurrencesAscend(Cursors(baseStart, step, now + HorizonMs), baseStart, baseEnd, now);
  }

  /** Every day the daily loop visits whose candidate passes the filters yields an occurrence. */
  lemma DailyComplete(baseStart: int, baseEnd: int, now: int, k: nat)
    requires baseStart + k * DayMs <= now + HorizonMs
    requires Admissible(Candidate(baseStart + k * DayMs, baseStart, baseEnd), now)
    ensures Candidate(baseStart + k * DayMs, baseStart, baseEnd) in Expand(Daily, baseStart, baseEnd, now)
  {
    var cs := Cursors(baseStart, DayMs, now + HorizonMs);
    assert |cs| * DayMs > k * DayMs;
    assert cs[k] == baseStart + k * DayMs;
    OccurrencesComplete(cs, baseStart, baseEnd, now);
  }

  /** When the end's time of day is not after the start's (an overnight task, say), every
      candidate ends no later than it starts and the expansion is empty. */
  lemma InvertedTimesYieldNothing(plan: Plan, baseStart: int, baseEnd: int, now: int)
    requires MinuteOfDay(baseEnd) <= MinuteOfDay(baseStart)
    ensures Expand(plan, baseStart, baseEnd, now) == []
  {
    var r := Expand(plan, baseStart, baseEnd, now);
    if |r| > 0 {
      assert Admissible(r[0], now) && OnBaseTimes(r[0], baseStart, baseEnd);
      AtMonotoneInMinute(DayOf(r[0].start), MinuteOfDay(baseEnd), MinuteOfDay(baseStart));
      assert false;
    }
  }

  /** Occurrences at one time of day with increasing starts are at least a day apart each. */
  lemma {:induction false} SpreadByDays(os: seq<Occurrence>, baseStart: int, baseEnd: int, k: nat)
    requires StartsIncrease(os)
    requires forall i :: 0 <= i < |os| ==> OnBaseTimes(os[i], baseStart, baseEnd)
    requires k < |os|
    ensures os[0].start + k * DayMs <= os[k].start
  {
    if k > 0 {
      SpreadByDays(os, baseStart, baseEnd, k - 1);
      var m := MinuteOfDay(baseStart);
      var d1, d2 := DayOf(os[k - 1].start), DayOf(os[k].start);
      assert At(d1, m) < At(d2, m);
      AtLaterDay(d1, d2, m);
    }
  }

  /** A daily or weekly request materialises at most thirty-one tasks: the starts are whole
      days apart and all lie within the thirty days from now. */
  lemma SteppedAtMostThirtyOne(plan: Plan, baseStart: int, baseEnd: int, now: int)
    requires plan.Daily? || plan.Weekly?
    ensures |Expand(plan, baseStart, baseEnd, now)| <= 31
  {
    var r := Expand(plan, baseStart, baseEnd, now);
    if |r| > 0 {
      SteppedStartsIncrease(plan, baseStart, baseEnd, now);
      SpreadByDays(r, baseStart, baseEnd, |r| - 1);
      assert Admissible(r[0], now) && Admissible(r[|r| - 1], now);
      assert (|r| - 1) * DayMs <= 30 * DayMs;
    }
  }

  /** A daily series started "now" gets nothing on today's date unless now falls on a whole
      minute: the seconds of the base start are dropped, so today's candidate starts before now
      and is filtered out as past. */
  lemma TodayDroppedUnlessWholeMinute(baseEnd: int, now: int)
    requires now % MinuteMs != 0
    ensures forall o :: o in Expand(Daily, now, baseEnd, now) ==> DayOf(o.start) > DayOf(now)
  {
    var r := Expand(Daily, now, baseEnd, now);
    forall o | o in r
      ensures DayOf(o.start) > DayOf(now)
    {
      var i :| 0 <= i < |r| && r[i] == o;
      assert Admissible(o, now) && OnBaseTimes(o, now, baseEnd);
      var m := MinuteOfDay(now);
      assert At(DayOf(now), m) == Midnight(now) + m * MinuteMs;
      assert At(DayOf(now), m) != now by {
        AtDecomposes(DayOf(now), m);
      }
      assert At(DayOf(now), m) < now <= At(DayOf(o.start), m);
    }
  }
}

=== FILE: reminders.dfy ===
/** The reminder sweep (backend/services/notificationScheduler.js `checkTaskReminders`): once
    a minute, the open tasks ending within five minutes are visited; each gets at most one
    reminder per end time, tracked in a set of keys that forgets end times more than an hour
    past. */
module Reminders {
  import opened Wrappers
  import opened Tasks
  import opened Clock
  import opened Seqs

  /** How far ahead of its end a task is reminded. */
  const ReminderLeadMs: int := 5 * MinuteMs

  /** `${task._id}-${endTime}`: task ids are hexadecimal, so the text splits back into the pair. */
  datatype Key = Key(taskId: TaskId, endTime: int)

  function KeyOf(t: Task): Key
  {
    Key(t.id, t.endTime)
  }

  /** A task with the verification flag of its owner, as the populated query returns it. */
  datatype Watch = Watch(task: Task, ownerVerified: bool)

  /** The query: open, not deleted, ending from now through five minutes from now. */
  predicate IsCandidate(t: Task, now: int)
  {
    now <= t.endTime <= now + ReminderLeadMs && !t.isCompleted && !t.isDeleted
  }

  function Due(ws: seq<Watch>, now: int): seq<Watch>
  {
    Filter(ws, (w: Watch) => IsCandidate(w.task, now))
  }

  /** The reminders one sweep attempts, and the key set afterwards. */
  datatype Sweep = Sweep(keys: set<Key>, sent: seq<Key>)

  /** The loop over the due tasks: skip a recorded key, skip an unverified owner, otherwise
      attempt the send and record the key, whether the send succeeded or failed (`outcomes`
      lists the send results in order). */
  function Visit(keys: set<Key>, ws: seq<Watch>, outcomes: seq<bool>): (r: Sweep)
    ensures keys <= r.keys
    ensures NoDuplicates(r.sent)
    ensures forall k :: k in r.sent ==> k !in keys
    ensures forall k :: k in r.keys <==> k in keys || k in r.sent
    ensures forall k :: k in r.sent ==> exists w :: w in ws && w.ownerVerified && KeyOf(w.task) == k
    ensures forall w :: w in ws && w.ownerVerified ==> KeyOf(w.task) in r.keys
    decreases |ws|
  {
    if ws == [] then Sweep(keys, [])
    else
      var k := KeyOf(ws[0].task);
      if k in keys then Visit(keys, ws[1..], outcomes)
      else if !ws[0].ownerVerified then Visit(keys, ws[1..], outcomes)
      else
        // A successful send and a failed one both record the key.
        var recorded := keys + {k};
        var r := Visit(recorded, ws[1..], if |outcomes| > 0 then outcomes[1..] else []);
        Sweep(r.keys, [k] + r.sent)
  }

  /** The send results do not matter to the sweep. */
  lemma {:induction false} VisitIgnoresOutcomes(keys: set<Key>, ws: seq<Watch>, o1: seq<bool>, o2: seq<bool>)
    ensures Visit(keys, ws, o1) == Visit(keys, ws, o2)
    decreases |ws|
  {
    if ws != [] {
      var k := KeyOf(ws[0].task);
      var t1 := if |o1| > 0 then o1[1..] else [];
      var t2 := if |o2| > 0 then o2[1..] else [];
      if k in keys || !ws[0].ownerVerified {
        VisitIgnoresOutcomes(keys, ws[1..], o1, o2);
      } else {
        VisitIgnoresOutcomes(keys + {k}, ws[1..], t1, t2);
      }
    }
  }

  /** The timestamp read back from a key: the second `-`-separated field parsed, which for a
      negative end time is empty and parses to NaN. */
  function Stamp(k: Key): Option<int>
  {
    if k.endTime >= 0 then Some(k.endTime) else None
  }

  /** The cleanup at the end of a sweep: drop the keys stamped more than an hour before now. */
  function Evict(keys: set<Key>, now: int): (r: set<Key>)
    ensures r <= keys
    ensures forall k :: k in keys && k.endTime >= now - HourMs ==> k in r
    ensures forall k :: k in keys && 0 <= k.endTime < now - HourMs ==> k !in r
  {
    set k | k in keys && !(Stamp(k).Some? && Stamp(k).value < now - HourMs)
  }

  /** One sweep at time `now` over the tasks of the store. */
  function Tick(keys: set<Key>, ws: seq<Watch>, outcomes: seq<bool>, now: int): Sweep
  {
    var v := Visit(keys, Due(ws, now), outcomes);
    Sweep(Evict(v.keys, now), v.sent)
  }

  /** A sweep reminds only open, undeleted tasks of verified owners ending within five minutes,
      each key at most once and none already recorded; afterwards every key it sent or that
      was recorded before is still recorded unless it ended more than an hour before now. */
  lemma TickSends(keys: set<Key>, ws: seq<Watch>, outcomes: seq<bool>, now: int)
    ensures var s := Tick(keys, ws, outcomes, now);
            && NoDuplicates(s.sent)
            && (forall k :: k in s.sent ==> k !in keys && now <= k.endTime <= now + ReminderLeadMs)
            && (forall k :: k in s.sent ==>
                  exists w :: w in ws && w.ownerVerified && IsCandidate(w.task, now) && KeyOf(w.task) == k)
            && (forall k :: (k in keys || k in s.sent) && k.endTime >= now - HourMs ==> k in s.keys)
  {
    var due := Due(ws, now);
    var v := Visit(keys, due, outcomes);
    forall k | k in v.sent
      ensures exists w :: w in ws && w.ownerVerified && IsCandidate(w.task, now) && KeyOf(w.task) == k
    {
      var w :| w in due && w.ownerVerified && KeyOf(w.task) == k;
      assert w in ws && IsCandidate(w.task, now);
    }
  }

  /** A verified owner's due task whose key is not yet recorded is reminded in that sweep; an
      unverified owner's task leaves no key behind. */
  lemma TickCoversDue(keys: set<Key>, ws: seq<Watch>, outcomes: seq<bool>, now: int, w: Watch)
    requires w in ws && IsCandidate(w.task, now) && KeyOf(w.task) !in keys
    ensures w.ownerVerified ==> KeyOf(w.task) in Tick(keys, ws, outcomes, now).sent
    ensures (forall x :: x in ws && KeyOf(x.task) == KeyOf(w.task) ==> !x.ownerVerified) ==>
              KeyOf(w.task) !in Tick(keys, ws, outcomes, now).keys
  {
    var due := Due(ws, now);
    assert w in due;
    var v := Visit(keys, due, outcomes);
    if w.ownerVerified {
      assert KeyOf(w.task) in v.keys;
    }
  }

  /** One sweep of a run: its time, the tasks the store holds then, and the send results. */
  datatype Round = Round(now: int, watches: seq<Watch>, outcomes: seq<bool>)

  /** The sweeps of a run in order, from a key set; the reminders of all of them. */
  function Run(keys: set<Key>, rounds: seq<Round>): Sweep
    decreases |rounds|
  {
    if rounds == [] then Sweep(keys, [])
    else
      var s := Tick(keys, rounds[0].watches, rounds[0].outcomes, rounds[0].now);
      var r := Run(s.keys, rounds[1..]);
      Sweep(r.keys, s.sent + r.sent)
  }

  /** Sweeps run at non-decreasing times. */
  predicate InTimeOrder(rounds: seq<Round>)
  {
    forall i, j :: 0 <= i < j < |rounds| ==> rounds[i].now <= rounds[j].now
  }

  /** Over any run of sweeps in time order, no (task, end time) is reminded twice, none recorded
      at the start is reminded at all, and every reminder is for an end time not before the
      first sweep: a key is forgotten only once its end time has passed by an hour, after which
      the task can no longer be due. */
  lemma {:induction false} RunRemindsOnce(keys: set<Key>, rounds: seq<Round>)
    requires InTimeOrder(rounds)
    ensures NoDuplicates(Run(keys, rounds).sent)
    ensures forall k :: k in Run(keys, rounds).sent ==> k !in keys
    ensures |rounds| > 0 ==> forall k :: k in Run(keys, rounds).sent ==> rounds[0].now <= k.endTime
    decreases |rounds|
  {
    if rounds != [] {
      var t := rounds[0];
      var s := Tick(keys, t.watches, t.outcomes, t.now);
      TickSends(keys, t.watches, t.outcomes, t.now);
      var rest := rounds[1..];
      assert InTimeOrder(rest);
      RunRemindsOnce(s.keys, rest);
      var r := Run(s.keys, rest);
      assert Run(keys, rounds).sent == s.sent + r.sent;
      forall k | k in r.sent
        ensures k !in s.sent && k !in keys && t.now <= k.endTime
      {
        assert rest[0].now <= k.endTime;
        assert t.now <= rest[0].now;
        assert k !in s.keys;
      }
      forall i, j | 0 <= i < j < |s.sent + r.sent|
        ensures (s.sent + r.sent)[i] != (s.sent + r.sent)[j]
      {
        if j < |s.sent| {
        } else if i >= |s.sent| {
          assert (s.sent + r.sent)[i] == r.sent[i - |s.sent|];
          assert (s.sent + r.sent)[j] == r.sent[j - |s.sent|];
        } else {
          assert (s.sent + r.sent)[j] == r.sent[j - |s.sent|];
          assert (s.sent + r.sent)[j] in r.sent;
        }
      }
    }
  }

  /** From an empty set, a run in time order reminds each (task, end time) at most once. */
  lemma RunFromStartRemindsOnce(rounds: seq<Round>)
    requires InTimeOrder(rounds)
    ensures NoDuplicates(Run({}, rounds).sent)
  {
    RunRemindsOnce({}, rounds);
  }

  /** The cron job starts a sweep every minute without waiting for the previous one, and a
      sweep records a key only after its send returns. Two sweeps that overlap therefore both
      start from the key set before either recorded anything, and a task due at both times
      is reminded twice. */
  lemma OverlappingSweepsResend(keys: set<Key>, ws: seq<Watch>, o1: seq<bool>, o2: seq<bool>,
                                now1: int, now2: int, w: Watch)
    requires w in ws && w.ownerVerified && KeyOf(w.task) !in keys
    requires IsCandidate(w.task, now1) && IsCandidate(w.task, now2)
    ensures KeyOf(w.task) in Tick(keys, ws, o1, now1).sent
    ensures KeyOf(w.task) in Tick(keys, ws, o2, now2).sent
    ensures !NoDuplicates(Tick(keys, ws, o1, now1).sent + Tick(keys, ws, o2, now2).sent)
  {
    TickCoversDue(keys, ws, o1, now1, w);
    TickCoversDue(keys, ws, o2, now2, w);
    SharedElementRepeats(Tick(keys, ws, o1, now1).sent, Tick(keys, ws, o2, now2).sent, KeyOf(w.task));
  }
}

=== FILE: seqs.dfy ===
/** Order-preserving filtering and counting over sequences: the `Array.prototype.filter`
    and `.filter(...).length` idiom every view and reduction of the application is built from. */
module Seqs {

  /** The elements of `s` that satisfy `p`, in their original order. */
  function Filter<T(!new)>(s: seq<T>, p: T -> bool): (r: seq<T>)
    ensures |r| <= |s|
    ensures forall i :: 0 <= i < |r| ==> p(r[i])
    ensures forall x :: x in r <==> x in s && p(x)
  {
    if |s| == 0 then []
    else if p(s[0]) then [s[0]] + Filter(s[1..], p)
    else Filter(s[1..], p)
  }

  /** How many elements of `s` satisfy `p`. */
  function Count<T(!new)>(s: seq<T>, p: T -> bool): nat
  {
    |Filter(s, p)|
  }

  /** `a` can be obtained from `b` by deleting elements: same relative order, no reordering. */
  predicate IsSubsequence<T(==)>(a: seq<T>, b: seq<T>)
    decreases |b|
  {
    if |a| == 0 then true
    else if |b| == 0 then false
    else if a[0] == b[0] then IsSubsequence(a[1..], b[1..])
    else IsSubsequence(a, b[1..])
  }

  /** No element occurs twice. */
  predicate NoDuplicates<T(==)>(s: seq<T>)
  {
    forall i, j :: 0 <= i < j < |s| ==> s[i] != s[j]
  }

  /** An element of both halves occurs twice in their concatenation. */
  lemma SharedElementRepeats<T>(s: seq<T>, t: seq<T>, x: T)
    requires x in s && x in t
    ensures !NoDuplicates(s + t)
  {
    var i :| 0 <= i < |s| && s[i] == x;
    var j :| 0 <= j < |t| && t[j] == x;
    assert (s + t)[i] == x && (s + t)[|s| + j] == x;
  }

  /** Filtering keeps the survivors in the order they had. */
  lemma {:induction false} FilterIsSubsequence<T(!new)>(s: seq<T>, p: T -> bool)
    ensures IsSubsequence(Filter(s, p), s)
  {
    if |s| > 0 {
      FilterIsSubsequence(s[1..], p);
      if p(s[0]) {
        assert Filter(s, p) == [s[0]] + Filter(s[1..], p);
        assert Filter(s, p)[1..] == Filter(s[1..], p);
      } else {
        var r := Filter(s, p);
        if |r| > 0 {
          assert r[0] in s && p(r[0]);
          assert r[0] != s[0];
        }
      }
    }
  }

  /** A filter every element passes is the identity. */
  lemma {:induction false} FilterKeepsAll<T(!new)>(s: seq<T>, p: T -> bool)
    requires forall i :: 0 <= i < |s| ==> p(s[i])
    ensures Filter(s, p) == s
  {
    if |s| > 0 {
      FilterKeepsAll(s[1..], p);
    }
  }

  /** A filter no element passes is empty. */
  lemma {:induction false} FilterDropsAll<T(!new)>(s: seq<T>, p: T -> bool)
    requires forall i :: 0 <= i < |s| ==> !p(s[i])
    ensures Filter(s, p) == []
  {
    if |s| > 0 {
      FilterDropsAll(s[1..], p);
    }
  }

  /** A weaker predicate counts at least as many elements. */
  lemma {:induction false} CountMonotone<T(!new)>(s: seq<T>, p: T -> bool, q: T -> bool)
    requires forall x :: p(x) ==> q(x)
    ensures Count(s, p) <= Count(s, q)
  {
    if |s| > 0 {
      CountMonotone(s[1..], p, q);
    }
  }

  /** Counting under a disjunction of two exclusive predicates adds the two counts. */
  lemma {:induction false} CountDisjointUnion<T(!new)>(s: seq<T>, p: T -> bool, q: T -> bool, either: T -> bool)
    requires forall x :: either(x) <==> p(x) || q(x)
    requires forall x :: !(p(x) && q(x))
    ensures Count(s, either) == Count(s, p) + Count(s, q)
  {
    if |s| > 0 {
      CountDisjointUnion(s[1..], p, q, either);
    }
  }

  /** Two exclusive predicates together count at most every element. */
  lemma CountDisjointBound<T(!new)>(s: seq<T>, p: T -> bool, q: T -> bool)
    requires forall x :: !(p(x) && q(x))
    ensures Count(s, p) + Count(s, q) <= |s|
  {
    var either := (x: T) => p(x) || q(x);
    CountDisjointUnion(s, p, q, either);
  }

  /** Two predicates that agree on every element count the same. */
  lemma {:induction false} CountCongruent<T(!new)>(s: seq<T>, p: T -> bool, q: T -> bool)
    requires forall i :: 0 <= i < |s| ==> (p(s[i]) <==> q(s[i]))
    ensures Filter(s, p) == Filter(s, q)
  {
    if |s| > 0 {
      CountCongruent(s[1..], p, q);
    }
  }

  /** Filtering a concatenation filters each part. */
  lemma {:induction false} FilterAppend<T(!new)>(s: seq<T>, t: seq<T>, p: T -> bool)
    ensures Filter(s + t, p) == Filter(s, p) + Filter(t, p)
  {
    if |s| == 0 {
      assert s + t == t;
    } else {
      FilterAppend(s[1..], t, p);
      assert (s + t)[0] == s[0];
      assert (s + t)[1..] == s[1..] + t;
      var rest := Filter(s[1..] + t, p);
      assert rest == Filter(s[1..], p) + Filter(t, p);
      if p(s[0]) {
        calc {
          Filter(s + t, p);
          [s[0]] + rest;
          ([s[0]] + Filter(s[1..], p)) + Filter(t, p);
          Filter(s, p) + Filter(t, p);
        }
      } else {
        assert Filter(s + t, p) == rest;
        assert Filter(s, p) == Filter(s[1..], p);
      }
    }
  }

  /** Filtering by `q` what a filter by `p` kept is filtering by both at once. */
  lemma {:induction false} FilterOfFilter<T(!new)>(s: seq<T>, p: T -> bool, q: T -> bool, both: T -> bool)
    requires forall x :: both(x) <==> p(x) && q(x)
    ensures Filter(Filter(s, p), q) == Filter(s, both)
  {
    if |s| > 0 {
      FilterOfFilter(s[1..], p, q, both);
      if p(s[0]) {
        var f := Filter(s, p);
        assert f == [s[0]] + Filter(s[1..], p);
        assert f[0] == s[0] && f[1..] == Filter(s[1..], p);
      }
    }
  }
}

=== FILE: status.dfy ===
/** The display status of a task, recomputed from its flags, its end time and the current
    time on every read (frontend/src/pages/Dashboard.js `getTaskStatus`), and the category
    tests the analytics and history reductions use. */
module Status {
  import opened Tasks

  datatype TaskStatus = Active | Completed | Failed | Deleted

  /** The status string the dashboard filter compares against. */
  function Name(s: TaskStatus): string
  {
    match s
    case Active => "active"
    case Completed => "completed"
    case Failed => "failed"
    case Deleted => "deleted"
  }

  /** The analytics and history notion of an active task: open, not deleted, not yet past its end. */
  predicate IsActiveAt(t: Task, now: int)
  {
    !t.isCompleted && !t.isDeleted && t.endTime >= now
  }

  /** The analytics notion of a failed task: open and past its end, deleted or not. */
  predicate IsFailedAt(t: Task, now: int)
  {
    !t.isCompleted && t.endTime < now
  }

  /** Deleted wins over completed, completed over failed, failed over active; failed means
      the current time is strictly after the end. */
  function Resolve(t: Task, now: int): (s: TaskStatus)
    ensures t.isDeleted ==> s == Deleted
    ensures s == Completed <==> t.isCompleted && !t.isDeleted
    ensures s == Failed <==> IsFailedAt(t, now) && !t.isDeleted
    ensures s == Active <==> IsActiveAt(t, now)
  {
    if t.isDeleted then Deleted
    else if t.isCompleted then Completed
    else if now > t.endTime then Failed
    else Active
  }

  /** The status reads only the two flags, the end time and the clock: two tasks that agree on
      those resolve alike whatever their start times, titles or other fields. */
  lemma ResolveReadsOnlyFlagsAndEnd(a: Task, b: Task, now: int)
    requires a.isDeleted == b.isDeleted && a.isCompleted == b.isCompleted && a.endTime == b.endTime
    ensures Resolve(a, now) == Resolve(b, now)
  {
  }

  /** An open task is still active at the very millisecond of its end and failed one
      millisecond later. */
  lemma FailedBoundary(t: Task)
    requires !t.isDeleted && !t.isCompleted
    ensures Resolve(t, t.endTime) == Active
    ensures Resolve(t, t.endTime + 1) == Failed
  {
  }

  /** Once failed, an unchanged task stays failed as time goes on; once deleted or completed,
      its status no longer depends on the time at all. */
  lemma StatusStableOverTime(t: Task, now: int, later: int)
    requires now <= later
    ensures Resolve(t, now) == Failed ==> Resolve(t, later) == Failed
    ensures Resolve(t, now) in {Completed, Deleted} ==> Resolve(t, later) == Resolve(t, now)
  {
  }

  /** The status names are distinct, so comparing names is comparing statuses. */
  lemma NameInjective(s: TaskStatus, u: TaskStatus)
    ensures Name(s) == Name(u) <==> s == u
  {
  }
}

=== FILE: taskform.dfy ===
/** The task form (frontend/src/components/TaskModal.js): assembling the start and end texts
    from the typed date and the hour and minute selects, the checks before submitting, the
    recurrence member of the body it submits, the latest day the custom-date picker offers, and
    the list of picked custom dates. */
module TaskForm {
  import opened Wrappers
  import opened Clock
  import opened Calendar
  import opened Text
  import opened Seqs
  import opened DisplayDate
  import opened Recurrence

  /** `combine`: nothing without a date, otherwise `date + "T" + h + ":" + m`. */
  function Combine(date: string, h: string, m: string): (r: string)
    ensures r == "" <==> date == ""
    ensures date != "" ==> |r| == |date| + |h| + |m| + 2 && r[..|date|] == date
  {
    if date == "" then "" else date + "T" + h + ":" + m
  }

  predicate IsTwoDigits(s: string)
  {
    |s| == 2 && AllDigits(s)
  }

  /** The instant of a `yyyy-MM-dd` date, an hour and a minute text, when all three are valid. */
  function TimeOf(date: string, hh: string, mm: string): (r: Option<int>)
    ensures r.Some? ==> r.value % MinuteMs == 0
  {
    if && IsIsoDate(date) && IsTwoDigits(hh) && IsTwoDigits(mm)
       && DigitsValue(hh) <= 23 && DigitsValue(mm) <= 59
    then
      var minute := 60 * DigitsValue(hh) + DigitsValue(mm);
      AtDecomposes(IsoDayNumber(date), minute);
      Some(At(IsoDayNumber(date), minute))
    else None
  }

  /** `new Date("yyyy-MM-ddTHH:mm")`: that local date and time, seconds zero. Any other text is
      an invalid date. */
  function ParseLocalDateTime(s: string): (r: Option<int>)
    ensures r.Some? ==> r.value % MinuteMs == 0
  {
    if |s| == 16 && s[10] == 'T' && s[13] == ':' then TimeOf(s[0..10], s[11..13], s[14..16])
    else None
  }

  /** A `yyyy-MM-dd` date (what `toIsoDatePart` returns) and a select hour and minute combine
      into a text denoting that minute of that day. */
  lemma CombineParses(iso: string, h: string, m: string)
    requires IsIsoDate(iso)
    requires IsTwoDigits(h) && DigitsValue(h) <= 23
    requires IsTwoDigits(m) && DigitsValue(m) <= 59
    ensures ParseLocalDateTime(Combine(iso, h, m)) == Some(At(IsoDayNumber(iso), 60 * DigitsValue(h) + DigitsValue(m)))
  {
    var s := Combine(iso, h, m);
    assert s == iso + "T" + h + ":" + m;
    assert s[0..10] == iso && s[11..13] == h && s[14..16] == m;
    assert ParseLocalDateTime(s) == TimeOf(iso, h, m);
  }

  datatype FormField = TitleField | StartField | EndField

  datatype FormError =
    | TitleRequired     // 'Title is required'
    | StartRequired     // 'Start time is required'
    | EndRequired       // 'End time is required'
    | EndNotAfterStart  // 'End time must be after start time'

  /** `validateForm`'s error object. A time text that does not parse compares false with
      anything, as an invalid date does. */
  function ValidateForm(title: string, startTime: string, endTime: string): map<FormField, FormError>
  {
    var e1 := if Trim(title) == "" then map[TitleField := TitleRequired] else map[];
    var e2 := if startTime == "" then e1[StartField := StartRequired] else e1;
    var e3 := if endTime == "" then e2[EndField := EndRequired] else e2;
    var s := ParseLocalDateTime(startTime);
    var e := ParseLocalDateTime(endTime);
    if startTime != "" && endTime != "" && s.Some? && e.Some? && e.value <= s.value then
      e3[EndField := EndNotAfterStart]
    else e3
  }

  /** The form submits iff the trimmed title is not empty, both times are present, and the end
      is not at or before the start. Each field carries its own message, and an end at or
      before the start is reported on the end field. */
  lemma ValidateFormCases(title: string, startTime: string, endTime: string)
    ensures var errs := ValidateForm(title, startTime, endTime);
            && (|errs| == 0 <==>
                  && Trim(title) != "" && startTime != "" && endTime != ""
                  && !(ParseLocalDateTime(startTime).Some? && ParseLocalDateTime(endTime).Some?
                       && ParseLocalDateTime(endTime).value <= ParseLocalDateTime(startTime).value))
            && (TitleField in errs <==> Trim(title) == "")
            && (StartField in errs <==> startTime == "")
            && (TitleField in errs ==> errs[TitleField] == TitleRequired)
            && (StartField in errs ==> errs[StartField] == StartRequired)
            && (EndField in errs <==>
                  || endTime == ""
                  || (startTime != "" && ParseLocalDateTime(startTime).Some? && ParseLocalDateTime(endTime).Some?
                      && ParseLocalDateTime(endTime).value <= ParseLocalDateTime(startTime).value))
            && (endTime == "" ==> EndField in errs && errs[EndField] == EndRequired)
            && (endTime != "" && startTime != "" && ParseLocalDateTime(startTime).Some? && ParseLocalDateTime(endTime).Some?
                && ParseLocalDateTime(endTime).value <= ParseLocalDateTime(startTime).value
                ==> EndField in errs && errs[EndField] == EndNotAfterStart)
  {
    var errs := ValidateForm(title, startTime, endTime);
    if Trim(title) == "" {
      assert TitleField in errs;
    }
    if startTime == "" {
      assert StartField in errs;
    }
    if endTime == "" {
      assert EndField in errs;
    }
  }

  /** For texts the selects produce, the form submits iff the title has text and the end is
      strictly after the start. */
  lemma ValidateFormOnCombinedTimes(title: string, startTime: string, endTime: string)
    requires ParseLocalDateTime(startTime).Some? && ParseLocalDateTime(endTime).Some?
    ensures |ValidateForm(title, startTime, endTime)| == 0 <==>
              Trim(title) != "" && ParseLocalDateTime(startTime).value < ParseLocalDateTime(endTime).value
  {
    ValidateFormCases(title, startTime, endTime);
  }

  /** The `recurrence` member of the submitted body. */
  datatype PayloadRecurrence = NoRecurrence | Stepped(kind: string) | CustomDates(dates: seq<string>)

  /** `handleSubmit`: `{type}` for daily or weekly, `{type: 'custom', dates}` for custom with
      at least one date, and no member otherwise. */
  function RecurrencePayload(recurrenceType: string, customDates: seq<string>): PayloadRecurrence
  {
    if recurrenceType == "daily" || recurrenceType == "weekly" then Stepped(recurrenceType)
    else if recurrenceType == "custom" && |customDates| > 0 then CustomDates(customDates)
    else NoRecurrence
  }

  /** `Date.parse` of a picker value `yyyy-MM-dd`: midnight of that day. */
  function ParseIsoDate(s: string): (r: Option<int>)
    ensures r.Some? <==> IsIsoDate(s)
  {
    if IsIsoDate(s) then Some(IsoDayNumber(s) * DayMs) else None
  }

  /** The recurrence value the server's validator reads from the body. */
  function Sent(p: PayloadRecurrence): RecurrenceValue
  {
    match p
    case NoRecurrence => Absent
    case Stepped(kind) => Object(Some(kind), None)
    case CustomDates(ds) => Object(Some("custom"), Some(seq(|ds|, i requires 0 <= i < |ds| => ParseIsoDate(ds[i]))))
  }

  /** Every picker value is a real date. */
  predicate AllIsoDates(dates: seq<string>)
  {
    forall i :: 0 <= i < |dates| ==> IsIsoDate(dates[i])
  }

  /** Whatever the form submits, the server's recurrence validator accepts, and reads the plan
      the form chose: a series for daily, weekly, and custom with dates, a single task for
      none and for custom without dates. */
  lemma PayloadAccepted(recurrenceType: string, customDates: seq<string>)
    requires AllIsoDates(customDates)
    ensures var v := Validate(Sent(RecurrencePayload(recurrenceType, customDates)));
            && v.Ok?
            && (recurrenceType == "daily" ==> v.value == Daily)
            && (recurrenceType == "weekly" ==> v.value == Weekly)
            && (recurrenceType == "custom" && |customDates| > 0 ==>
                  v.value == Custom(seq(|customDates|, i requires 0 <= i < |customDates| => IsoDayNumber(customDates[i]) * DayMs)))
            && (IsRecurring(v.value) <==>
                  recurrenceType in {"daily", "weekly"} || (recurrenceType == "custom" && |customDates| > 0))
  {
    var p := RecurrencePayload(recurrenceType, customDates);
    if p.CustomDates? {
      var ds := Sent(p).dates.value;
      var r := ParsedDates(ds);
      assert r.value == seq(|customDates|, i requires 0 <= i < |customDates| => IsoDayNumber(customDates[i]) * DayMs);
    }
  }

  /** `maxDateTimeStart`: thirty days ahead when recurring, seven otherwise, to the minute.
      Only its date part is used, as the last day the custom-date picker offers. */
  function MaxStart(now: int, recurrenceType: string): (r: int)
    ensures r % MinuteMs == 0
    ensures r <= StartWindowEnd(now, recurrenceType != "none") < r + MinuteMs
  {
    var d := now + (if recurrenceType != "none" then 30 else 7) * DayMs;
    AtDecomposes(DayOf(d), MinuteOfDay(d));
    At(DayOf(d), MinuteOfDay(d))
  }

  /** The Add button: an empty picker changes nothing, a date already listed changes nothing,
      any other date is appended. */
  function AddCustomDate(dates: seq<string>, d: string): seq<string>
  {
    if d == "" then dates
    else if d in dates then dates
    else dates + [d]
  }

  /** Adding never duplicates a date, never removes or reorders one, and is a no-op for an
      empty picker; afterwards the list holds exactly the old dates and the picked one. */
  lemma AddCustomDateKeepsSet(dates: seq<string>, d: string)
    ensures d == "" ==> AddCustomDate(dates, d) == dates
    ensures NoDuplicates(dates) ==> NoDuplicates(AddCustomDate(dates, d))
    ensures |dates| <= |AddCustomDate(dates, d)| && AddCustomDate(dates, d)[..|dates|] == dates
    ensures d != "" ==> forall x :: x in AddCustomDate(dates, d) <==> x in dates || x == d
    ensures AllIsoDates(dates) && (d == "" || IsIsoDate(d)) ==> AllIsoDates(AddCustomDate(dates, d))
  {
  }

  /** A picked `yyyy-MM-dd` date and the same day typed as `dd-MM-yyyy` on the History page
      denote the same midnight. */
  lemma PickerAgreesWithHistory(typed: string)
    requires ToIsoDatePart(typed) != ""
    ensures ParseIsoDate(ToIsoDatePart(typed)) == ParseDisplayDate(typed)
  {
    ParsersAgree(typed);
  }

  /** Whole days ahead keep the time of day. */
  lemma MinuteOfDayAfterDays(t: int, days: int)
    ensures MinuteOfDay(t + days * DayMs) == MinuteOfDay(t)
  {
    assert t == DayOf(t) * DayMs + t % DayMs;
    var u := t + days * DayMs;
    assert u == (DayOf(t) + days) * DayMs + t % DayMs;
    assert u % DayMs == t % DayMs;
  }

  /** The picker's last day is the day of the server's thirty-day cutoff. A date picked on that
      day, for a task whose base start is later in the day than now, starts after the cutoff
      and yields no occurrence. */
  lemma LastPickableDayDropsLateStarts(now: int, baseStart: int, baseEnd: int)
    requires MinuteOfDay(baseStart) > MinuteOfDay(now)
    ensures DayOf(MaxStart(now, "custom")) == DayOf(now + HorizonMs)
    ensures Occurrences([DayOf(MaxStart(now, "custom")) * DayMs], baseStart, baseEnd, now) == []
  {
    var d := now + HorizonMs;
    var day := DayOf(d);
    AtDecomposes(day, MinuteOfDay(d));
    MinuteOfDayAfterDays(now, 30);
    var date := day * DayMs;
    AtDecomposes(day, 0);
    assert At(day, 0) == date;
    var c := Candidate(date, baseStart, baseEnd);
    assert c.start == At(day, MinuteOfDay(baseStart));
    AtMonotoneInMinute(day, MinuteOfDay(d) + 1, MinuteOfDay(baseStart));
    assert Midnight(d) == day * DayMs;
    assert c.start > d;
    assert !Admissible(c, now);
    assert [date][1..] == [];
  }
}

=== FILE: tasks.dfy ===
/** The task record of the document store (backend/db/schema.js), the per-owner lookup every
    handler starts with, and the rejections the task routes answer with, one per message. */
module Tasks {
  import opened Wrappers
  import opened Text
  import opened Seqs

  type TaskId = string
  type UserId = string

  datatype Priority = Low | Medium | High | NoPriority

  /** The schema's default priority when a request names none. */
  const DefaultPriority: Priority := Medium

  /** One stored task. `createdAt` and `updatedAt` are maintained by the store. */
  datatype Task = Task(
    id: TaskId,
    owner: UserId,
    title: string,
    description: Option<string>,
    startTime: int,
    endTime: int,
    priority: Priority,
    isCompleted: bool,
    isDeleted: bool,
    createdAt: int,
    updatedAt: int)

  /** The title validator: one to 255 characters once trimmed, counted as `isLength` counts. */
  predicate TitleValid(title: string)
  {
    1 <= ValidatorLength(Trim(title)) <= 255
  }

  /** A title of a lone presentation selector has length zero and is refused, and a selector
      after a valid title is not counted against the limit. */
  lemma SelectorTitles(title: string)
    requires 1 <= |title| <= 255 && !IsSpace(title[0]) && !IsSpace(title[|title| - 1])
    requires forall i :: 0 <= i < |title| ==> !IsPresentationSelector(title[i])
    ensures !TitleValid("\U{FE0F}")
    ensures TitleValid(title) && TitleValid(title + "\U{FE0F}")
  {
    assert Trim("\U{FE0F}") == "\U{FE0F}";
    assert Filter("\U{FE0F}", IsPresentationSelector) == "\U{FE0F}";
    assert Trim(title) == title;
    var t := title + "\U{FE0F}";
    assert Trim(t) == t by {
      assert t[0] == title[0];
    }
    FilterDropsAll(title, IsPresentationSelector);
    ValidatorLengthAppend(title, '\U{FE0F}');
  }

  function TrimmedOption(s: Option<string>): Option<string>
  {
    match s
    case None => None
    case Some(v) => Some(Trim(v))
  }

  /** The store, keyed by task id. */
  type Store = map<TaskId, Task>

  /** A problem reported in the 400 `errors` array by the request-body validators. */
  datatype Problem =
    | TitleLength            // title not 1..255 characters after trimming
    | FieldSyntax            // ISO 8601 times, priority enum
    | NotBoolean             // isCompleted not a boolean
    | InvalidRecurrence      // 'Invalid recurrence'
    | InvalidRecurrenceType  // 'Invalid recurrence type'
    | DatesNotArray          // 'recurrence.dates must be an array for custom'
    | InvalidRecurrenceDate  // 'Invalid date in recurrence.dates'

  /** Every way a task route refuses a request; each variant is one response message. */
  datatype Rejection =
    | Invalid(problems: seq<Problem>)  // 400 with the validators' errors array
    | NotFound                         // 404 'Task not found'
    | EndNotAfterStart                 // 'End time must be after start time'
    | StartOutsideWindow               // 'Start time must be within 7 days before or after today'
    | NoValidOccurrences               // 'No valid occurrences to schedule within next 30 days'
    | CannotUnmarkCompleted            // 'Cannot unmark a completed task'
    | CannotUpdateCompleted            // 'Cannot update a completed task'
    | NotStarted                       // 'Cannot complete a task that has not started yet'
    | CannotUncompleteExpired          // 'Cannot uncomplete an expired task'
    | EndInPast                        // 'End time must be now or later'
    | CannotDeleteExpired              // 'Cannot delete an expired task'

  /** `findOne({ _id: id, userId: owner })`: the task, only when it exists and the caller owns it. */
  function Find(store: Store, owner: UserId, id: TaskId): (r: Option<Task>)
    ensures r.Some? <==> id in store && store[id].owner == owner
    ensures r.Some? ==> r.value == store[id]
  {
    if id in store && store[id].owner == owner then Some(store[id]) else None
  }

  /** Writing a task back replaces the entry under its id and nothing else. */
  function Save(store: Store, t: Task): (r: Store)
    ensures t.id in r && r[t.id] == t
    ensures forall k :: k != t.id ==> (k in r <==> k in store)
    ensures forall k :: k != t.id && k in store ==> r[k] == store[k]
  {
    store[t.id := t]
  }
}

=== FILE: text.dfy ===
/** Whitespace trimming as `String.prototype.trim` and express-validator's `trim()` sanitizer
    do it: leading and trailing white space and line terminators are removed, inner ones kept. */
module Text {
  import opened Seqs

  /** The ECMAScript WhiteSpace and LineTerminator code points. */
  predicate IsSpace(c: char)
  {
    c == '\t' || c == '\n' || c == '\U{000B}' || c == '\U{000C}' || c == '\r' || c == ' '
    || c == '\U{00A0}' || c == '\U{1680}' || ('\U{2000}' <= c <= '\U{200A}')
    || c == '\U{2028}' || c == '\U{2029}' || c == '\U{202F}' || c == '\U{205F}'
    || c == '\U{3000}' || c == '\U{FEFF}'
  }

  predicate AllSpace(s: string)
  {
    forall i :: 0 <= i < |s| ==> IsSpace(s[i])
  }

  /** `s` without its leading white space. */
  function TrimStart(s: string): (r: string)
    ensures |r| <= |s| && r == s[|s| - |r|..]
    ensures AllSpace(s[..|s| - |r|])
    ensures |r| > 0 ==> !IsSpace(r[0])
  {
    if |s| > 0 && IsSpace(s[0]) then TrimStart(s[1..]) else s
  }

  /** `s` without its trailing white space. */
  function TrimEnd(s: string): (r: string)
    ensures |r| <= |s| && r == s[..|r|]
    ensures AllSpace(s[|r|..])
    ensures |r| > 0 ==> !IsSpace(r[|r| - 1])
  {
    if |s| > 0 && IsSpace(s[|s| - 1]) then TrimEnd(s[..|s| - 1]) else s
  }

  /** `s.trim()`: a contiguous slice of `s` that neither starts nor ends with white space,
      with only white space cut off on either side. */
  function Trim(s: string): (r: string)
    ensures exists i ::
              && 0 <= i <= |s| - |r|
              && r == s[i..i + |r|]
              && AllSpace(s[..i])
              && AllSpace(s[i + |r|..])
    ensures |r| > 0 ==> !IsSpace(r[0]) && !IsSpace(r[|r| - 1])
  {
    var a := TrimStart(s);
    var r := TrimEnd(a);
    var i := |s| - |a|;
    assert r == s[i..i + |r|];
    assert s[i + |r|..] == a[|r|..];
    r
  }

  /** The trimmed text is empty exactly when the text is all white space. */
  lemma TrimEmptyIffAllSpace(s: string)
    ensures Trim(s) == "" <==> AllSpace(s)
  {
    var r := Trim(s);
    var i :| 0 <= i <= |s| - |r| && r == s[i..i + |r|] && AllSpace(s[..i]) && AllSpace(s[i + |r|..]);
    if r == "" {
      forall k | 0 <= k < |s|
        ensures IsSpace(s[k])
      {
        if k < i {
          assert s[k] == s[..i][k];
        } else {
          assert s[k] == s[i..][k - i];
        }
      }
    } else {
      assert s[i] == r[0];
    }
  }

  /** U+FE0E and U+FE0F, the variation selectors validator.js leaves out of a length. */
  predicate IsPresentationSelector(c: char)
  {
    c == '\U{FE0E}' || c == '\U{FE0F}'
  }

  /** The length `isLength` measures: the code points of `s` other than the two
      presentation selectors. */
  function ValidatorLength(s: string): (n: nat)
    ensures n <= |s|
  {
    |s| - Count(s, IsPresentationSelector)
  }

  /** Appending a character adds one to the length, except for a presentation selector,
      which adds nothing. */
  lemma ValidatorLengthAppend(s: string, c: char)
    ensures ValidatorLength(s + [c]) == ValidatorLength(s) + (if IsPresentationSelector(c) then 0 else 1)
  {
    FilterAppend(s, [c], IsPresentationSelector);
    assert [c][1..] == [];
  }
}

=== FILE: wrappers.dfy ===
/** Optional values and success-or-rejection results shared by every module. */
module Wrappers {

  /** A value that may be missing: an absent JSON field, a failed parse. */
  datatype Option<+T> = None | Some(value: T)

  /** The outcome of a request handler: the value it produces or the rejection it answers with. */
  datatype Result<+T, +E> = Ok(value: T) | Err(error: E)
}
